=== FILE: README.md ===
# Ticket lifecycle core of ticket-manager-backend, in Dafny

ticket-manager-backend is a support-ticket tracker. Customers submit
tickets tagged with a category. A new ticket is routed to the first active
admin bound to that category. Admins and a superadmin then read, update
and comment on tickets under role-based scopes. A dashboard aggregates
counts, and a small category registry lists and creates categories.

This project models that core as pure functions over an in-memory store.
The store (`Db.Store`) holds three sequences: tickets, users and
categories. Each HTTP handler is one function. It takes the store, the
caller's identity (`Option<Identity>`, None when no token was given), the
request fields and the current time `now`. It returns
`Result<...>`: either the new store with the response value, or one of
the error responses (`Basics.Error`: validation failed, unauthorized,
ticket not found, duplicate category name, server error).

Modules follow the source files:

- `TicketModel`, `CategoryModel`: the two schemas, their enumerations,
  defaults and save-time setters and checks.
- `TicketRoutes`, `CategoryRoutes`: the declarative request validators
  and the sanitizing they do.
- `TicketController`: createTicket (with assignment), getTicketById,
  updateTicket, addComment.
- `TicketList`: getTickets.
- `CategoryController`: getCategories and createCategory.
- `DashboardController`: getDashboardStats.
- `Scope`: the two visibility rules. Get, update, comment and the
  dashboard key on the assignee. The list keys on the admin's category.
- `TicketProperties`: properties that span several operations.
- Support: `Basics` (results, errors, fresh ids), `Text` (JavaScript
  trim, lower-casing, string lengths, code-point order, integer syntax),
  `Seqs` (filter, first match, take), `Sorting` (sorting by a total
  preorder).

Some behaviours of the code are easy to miss. The model follows the
code:

- **List scope.** The list scopes an admin by the admin's category, not by
  the assignee (src/controllers/ticketController.js:69-72).
  `Scope.ScopesDisagree` shows that the two rules differ in both
  directions.
- **Ticket creation.** It does not check that the category exists.
- **Comments.** A comment's content is not validated. An empty or absent
  content is appended as it is.
- **Category creation.** It checks authentication only, with no role
  check.
- **Completion times.** They are never cleared. They are re-stamped
  every time a status is set to resolved or closed.

Two behaviours of the code are modelled as written. Both end in a server
error (500) rather than a validation error:

- **Blank normalized email.** The model leaves the validator library's
  normalizeEmail() uninterpreted, so it also covers a sanitizer that
  leaves only white space. The schema's `required` check then fails on
  save. The library's own normalizeEmail() never does this: it returns
  the address rejoined around '@', or `false`, which becomes the string
  "false". Under the real library, this server error cannot happen.
  `TicketController.CreateTicketServerError` states the general case.
- **Long titles outside the BMP.** The route's isLength() counts a
  character outside the Basic Multilingual Plane once. The schema's
  `maxlength` counts its two UTF-16 units. A title of 101 to 200 such
  characters passes the route, and the save then refuses it.
  `TicketController.WideTitleServerError` exhibits this case.

The list takes page 1 and 10 tickets per page when the request names
no page or limit. A page number of 0 makes the store's skip negative,
which the handler answers with a server error. The dashboard handler
reads the caller without a guard, so a request that reaches it with no
caller fails there with a server error. Whether such a request can reach
it depends on its route: src/routes/dashboardRoutes.js is not part of
this model. If that route puts the authentication middleware first, as
every other route that reads the caller does, the request is answered
401 before the handler runs.

## Model

| member | source | states |
|---|---|---|
| Basics.HttpStatus | src/controllers/ticketController.js:9-13 | Every error maps to a 4xx or 5xx code; 400 is exactly the validation and duplicate-name errors |
| Basics.FreshId | src/controllers/ticketController.js:42 | A saved document gets an id that no existing document has |
| Text.Trim | src/models/Ticket.js:7 | The trimmed string is no longer than the input and has no white space (the JavaScript `\s` set) at either end |
| Text.TrimInfix | src/routes/ticketRoutes.js:15 | Trim cuts only white space, and only from the two ends |
| Text.TrimOfTrimmed | src/models/Ticket.js:7 | A string with no white space at either end is left alone by trim |
| Text.TrimIdempotent | src/routes/ticketRoutes.js:15 | Trimming in the route and again in the schema setter is the same as trimming once |
| Text.TrimEmptyIff | src/routes/ticketRoutes.js:16 | Trim returns the empty string exactly when the input is all white space |
| Text.Utf16Length | src/models/Ticket.js:8 | The schema's length lies between the number of characters and twice that |
| Text.ValidatorLength | src/routes/ticketRoutes.js:15 | The validator's length never exceeds the character count, and is 0 exactly for strings of variation selectors only |
| Text.AstralLengths | src/routes/ticketRoutes.js:15 | For characters outside the Basic Multilingual Plane the validator counts one each and the schema two |
| Text.Lower | src/models/Ticket.js:38 | Lower-casing keeps the length, maps each character by itself, and leaves no upper-case letter |
| Text.LowerTrimStartCommute | src/models/Ticket.js:37-38 | Lower-casing commutes with trimming the start |
| Text.LowerTrimEndCommute | src/models/Ticket.js:37-38 | Lower-casing commutes with trimming the end |
| Text.LowerTrimCommute | src/models/Ticket.js:37-38 | The email setters trim and lowercase give the same result in either order |
| Text.StrLeTotal | src/controllers/categoryController.js:8 | Any two names are ordered one way or the other |
| Text.StrLeTransitive | src/controllers/categoryController.js:8 | The name order is transitive |
| Text.StrLeAntisymmetric | src/controllers/categoryController.js:8 | Two names that precede each other are equal |
| Text.ParseInt | src/routes/categoryRoutes.js:11 | A value is accepted exactly for an optional sign followed by one or more digits; its sign follows the sign character |
| Text.ParseShowInt | src/routes/categoryRoutes.js:11 | Every integer's decimal text is accepted and denotes that integer |
| Seqs.Filter | src/controllers/ticketController.js:77 | A query returns only documents that satisfy it, and every stored document that does, never more than there are |
| Seqs.FilterMultiset | src/controllers/ticketController.js:77 | A query returns each satisfying document as often as the store holds it and no other document, so every count of its result counts the store's matches |
| Seqs.FilterAppend | src/controllers/ticketController.js:77 | The result for two stretches of the store is the result for the first followed by that for the second: results keep store order |
| Seqs.FilterSingleton | src/controllers/ticketController.js:77 | A single document is returned exactly when it satisfies the query |
| Seqs.FirstIndex | src/controllers/ticketController.js:118 | findOne returns the first match, or none when no document matches |
| Sorting.Sort | src/controllers/ticketController.js:80 | The result is sorted and holds the same documents with the same multiplicities |
| Sorting.SortedUnique | src/controllers/categoryController.js:6-9 | With no ties between distinct documents, a sorted arrangement of a collection is unique |
| Scope.CanAccess | src/controllers/ticketController.js:113-116 | The assignee rule of get, update, comment and the dashboard: an admin reaches exactly the tickets assigned to it, and anyone else reaches every ticket |
| Scope.ListVisible | src/controllers/ticketController.js:69-72 | The list's rule: an admin bound to a category sees exactly that category's tickets, and anyone else sees every ticket |
| Scope.Accessible | src/controllers/dashboardController.js:9-12 | An admin reaches exactly the tickets assigned to it, and a superadmin reaches all of them in store order |
| Scope.AccessibleCounts | src/controllers/dashboardController.js:9-12 | The scope holds each accessible ticket as often as the store does and no other ticket, so the dashboard's counts count accessible tickets |
| Scope.UnassignedOnlySuperadmin | src/controllers/ticketController.js:113-116 | An unassigned ticket can be read, updated or commented on by a superadmin only |
| Scope.ScopesDisagree | src/controllers/ticketController.js:69-72 | The list's category rule and the assignee rule disagree in both directions |
| TicketModel.ParseStatus | src/models/Ticket.js:20-24 | A status string is accepted only as the name of its status |
| TicketModel.ParsePriority | src/models/Ticket.js:25-29 | A priority string is accepted only as the name of its priority |
| TicketModel.StatusRoundTrip | src/models/Ticket.js:22 | Every status's name parses back to that status |
| TicketModel.PriorityRoundTrip | src/models/Ticket.js:27 | Every priority's name parses back to that priority |
| TicketModel.SchemaValid | src/models/Ticket.js:4-44 | The save-time checks: title, description, email and name present and non-empty, and the title at most 200 UTF-16 units; category presence and the two enumerations hold by construction of the model's types |
| Db.Valid | src/models/Category.js:5-10 | The store invariant: ticket ids are distinct, every ticket is well formed, category ids are distinct, and category names are distinct as the unique index on `name` enforces |
| TicketModel.CastEmail | src/models/Ticket.js:34-39 | A stored email is trimmed and lower-case, and empty exactly when the input was all white space |
| TicketModel.NewTicket | src/models/Ticket.js:20-63 | A new document has its setters applied, status "open", and no comments, attachments or completion times |
| CategoryModel.NewCategory | src/models/Category.js:5-26 | A new category has a trimmed name and description and is active |
| CategoryModel.DisplayOrderIsTotalPreorder | src/controllers/categoryController.js:6-9 | Ordering by priority, then by name, is total and transitive |
| CategoryModel.DisplayOrderAntisymmetric | src/controllers/categoryController.js:6-9 | Two categories that precede each other have the same priority and name |
| TicketRoutes.CreateTicketErrors | src/routes/ticketRoutes.js:14-21 | A submission has no errors exactly when the title, description, category, email, name and priority rules all hold |
| TicketRoutes.SanitizeCreateTicket | src/routes/ticketRoutes.js:15-19 | The handler sees title, description and name trimmed and the email as normalizeEmail() returns it; category and priority arrive unchanged |
| TicketRoutes.UpdateTicketErrors | src/routes/ticketRoutes.js:24-27 | An update has no errors exactly when any status and any priority it gives are enumeration names |
| TicketRoutes.ValidatedTicketFitsSchema | src/routes/ticketRoutes.js:15-19 | After validation, title, description and name are trimmed and non-empty, and the title is within the validator's limit |
| CategoryRoutes.CreateCategoryErrors | src/routes/categoryRoutes.js:7-12 | A category body has no errors exactly when the name, colour and priority rules hold; the description never fails |
| CategoryRoutes.SanitizeCreateCategory | src/routes/categoryRoutes.js:8-9 | The handler sees the name trimmed and a description, when given, trimmed; colour and priority arrive unchanged |
| CategoryRoutes.PriorityValue | src/routes/categoryRoutes.js:11 | A validated priority, once cast to a number, is at least 1 and is absent only when not given |
| TicketController.FindAssignee | src/controllers/ticketController.js:26-30 | The assignee is the first active admin of the category in store order, and is absent exactly when there is none |
| TicketController.PriorityOrDefault | src/controllers/ticketController.js:36 | The priority is "medium" when none is given and otherwise the named one |
| TicketController.TicketFromRequest | src/controllers/ticketController.js:32-40 | A new ticket has a fresh id, the requested category, status "open", the requested or default priority, no completion times, both timestamps at now, and as assignee the first active admin of the category in user order (FindAssignee), or nobody |
| TicketController.TicketFromRequestStrings | src/controllers/ticketController.js:32-40 | The stored title, description and name are the trimmed request fields; the email is the normalized one, trimmed and lower-cased |
| TicketController.CreateTicket | src/controllers/ticketController.js:5-60 | Creation answers 400 exactly on validation errors; on success it appends one well-formed ticket and changes nothing else; it needs no caller |
| TicketController.TicketFromRequestSchema | src/models/Ticket.js:4-44 | A validated submission satisfies the schema exactly when its normalized email is not blank and its title is within 200 UTF-16 units |
| TicketController.CreateTicketServerError | src/controllers/ticketController.js:42-59 | A validated submission fails to save, with a 500, exactly when its normalized email is blank (which only an uninterpreted sanitizer allows) or its title is too long for the schema |
| TicketController.WideTitle | src/models/Ticket.js:8 | A title of 101 to 200 characters outside the Basic Multilingual Plane passes the route but exceeds the schema's length |
| TicketController.WideTitleServerError | src/controllers/ticketController.js:53-59 | A concrete submission passes validation and still fails to save with a server error |
| TicketController.GetTicket | src/controllers/ticketController.js:108-141 | A read succeeds exactly when a ticket with the id is in the caller's scope (for an admin: assigned to it) and returns that ticket; otherwise it answers 401 or 404 |
| TicketController.ApplyUpdate | src/controllers/ticketController.js:163-172 | A given status or priority replaces the old one; resolved and closed stamp their completion time, other statuses keep both; no other field but the update time changes; well-formedness is kept |
| TicketController.StatusField | src/routes/ticketRoutes.js:25 | A validated status is absent exactly when not given, and otherwise names the parsed status |
| TicketController.PriorityField | src/routes/ticketRoutes.js:26 | A validated priority is absent exactly when not given, and otherwise names the parsed priority |
| TicketController.UpdateTicket | src/controllers/ticketController.js:143-200 | An update answers 401 without a caller and 400 on invalid fields; it succeeds exactly when a ticket with the id is in scope; it replaces that one ticket only and leaves users and categories alone |
| TicketController.AppendComment | src/controllers/ticketController.js:213-225 | Exactly one comment by the caller at now is added after the existing ones, which are unchanged |
| TicketController.AddComment | src/controllers/ticketController.js:202-249 | A comment succeeds exactly when a ticket with the id is in the caller's scope; only that ticket changes |
| TicketList.SortNewestFirst | src/controllers/ticketController.js:80 | The list is ordered by creation time, newest first, and is a permutation of the matches |
| TicketList.CeilDiv | src/controllers/ticketController.js:95 | The page count is the fewest pages of `limit` items that hold all matches |
| TicketList.Window | src/controllers/ticketController.js:81-82 | skip and limit keep at most `limit` consecutive items starting at the skip position |
| TicketList.WindowSorted | src/controllers/ticketController.js:80-82 | A page cut from a sorted list is sorted |
| TicketList.PageOf | src/controllers/ticketController.js:77-96 | A page is exactly the window that starts after (page-1)*limit matches in the newest-first order of all matches and holds at most `limit` of them. It reports the total and page count of all matches |
| TicketList.MatchesFilters | src/controllers/ticketController.js:74-75 | A status or priority filter constrains the ticket's field only when it is present and non-empty, since the handler tests it for truthiness |
| TicketList.ListTickets | src/controllers/ticketController.js:62-106 | The list answers 401 without a caller and 500 on page 0; otherwise it echoes page and limit (1 and 10 when absent), returns exactly the page-th window of `limit` tickets from the newest-first order of all visible tickets that pass the filters, reports as total the number of all such tickets, and a page count that fits it |
| TicketList.DefaultFirstPage | src/controllers/ticketController.js:64 | A request without page and limit gets page 1 of 10: the ten newest matches, or all of them when fewer |
| TicketList.ListTotal | src/controllers/ticketController.js:85 | The total counts the filtered tickets of the admin's category, or all filtered tickets for anyone else |
| TicketList.PageOfItem | src/controllers/ticketController.js:82 | The k-th match lies in the window of page k div limit + 1, which is within the page count |
| TicketList.SecondPageOfTwentyFive | src/controllers/ticketController.js:81-95 | With 25 matches and 10 per page, page 2 holds matches 11 to 20 and there are 3 pages |
| TicketList.PagesCover | src/controllers/ticketController.js:77-95 | Every match is on some page within the page count |
| TicketList.ListPagesCover | src/controllers/ticketController.js:62-96 | Paging through the list reaches every visible ticket that passes the filters, when every page is cut from one newest-first order |
| TicketList.NewestFirstUnique | src/controllers/ticketController.js:80 | With distinct creation times, any newest-first arrangement of the matches is the one pages are cut from |
| CategoryController.GetCategories | src/controllers/categoryController.js:4-22 | The public listing holds exactly the active categories, each as often as stored, by priority then name |
| CategoryController.GetCategoriesDeterministic | src/controllers/categoryController.js:6-9 | With unique names, any display-ordered arrangement of the active categories is the listing |
| CategoryController.CategoryFromRequest | src/controllers/categoryController.js:35-42 | A new category gets a fresh id, the trimmed name and description, the colour or "#3B82F6", the priority or 1, and is active |
| CategoryController.CreateCategory | src/controllers/categoryController.js:24-64 | Creation answers 401 without a caller, 400 on validation errors, and 400 "Category name already exists" exactly when the name is taken; otherwise it adds exactly one category; no role is checked |
| CategoryController.CreateCategoryKeepsValid | src/models/Category.js:5-10 | Creation keeps category ids and names distinct |
| CategoryController.CreatedCategoryIsListed | src/models/Category.js:19-22 | A new category is active, so the public listing shows it |
| DashboardController.StatusCountsSum | src/controllers/dashboardController.js:15-31 | The four status counts add up to the number of tickets |
| DashboardController.PriorityCountsSum | src/controllers/dashboardController.js:37-40 | The four priority counts add up to the number of tickets |
| DashboardController.PriorityStats | src/controllers/dashboardController.js:37-40 | The priority histogram has one row per priority that occurs, with that priority's ticket count |
| DashboardController.PriorityRowIffPresent | src/controllers/dashboardController.js:37-40 | A priority has a histogram row exactly when some ticket in scope has it |
| DashboardController.PriorityStatsSum | src/controllers/dashboardController.js:37-40 | The histogram's counts add up to the number of tickets in scope |
| DashboardController.RecentTickets | src/controllers/dashboardController.js:43-47 | The panel holds min(5, scope size) tickets, each from the scope and no more often than there, newest first |
| DashboardController.RecentAreNewest | src/controllers/dashboardController.js:43-47 | A ticket left out of the panel is no newer than any ticket shown |
| DashboardController.GroupIds | src/controllers/dashboardController.js:51 | The groups are the distinct categories that occur among the tickets |
| DashboardController.LookupRows | src/controllers/dashboardController.js:52-62 | After the lookup and unwind, a row exists exactly for a group and a category document with its id; groups without one drop out |
| DashboardController.CategoryStats | src/controllers/dashboardController.js:50-64 | A category row carries an existing category's name and the number of all tickets in it, and exists exactly when that number is positive |
| DashboardController.GetDashboardStats | src/controllers/dashboardController.js:4-90 | The counts are over the caller's assignee scope and add up to the total; totalCat counts the active categories; the recent panel shows only tickets the caller can access; an admin gets no category rows; a superadmin gets counts over all tickets and the category histogram; with no caller the handler itself answers 500 |
| TicketProperties.CreateTicketKeepsValid | src/controllers/ticketController.js:32-42 | Creation keeps ticket ids distinct and every ticket well formed |
| TicketProperties.UpdateTicketKeepsValid | src/controllers/ticketController.js:174-177 | An update keeps ticket ids distinct and every ticket well formed |
| TicketProperties.AddCommentKeepsValid | src/controllers/ticketController.js:213-225 | A comment keeps ticket ids distinct and every ticket well formed |
| TicketProperties.GetFindsTicket | src/controllers/ticketController.js:113-118 | In a valid store, anyone who can access a ticket gets exactly it back by its id |
| TicketProperties.UpdateThenGet | src/controllers/ticketController.js:174-177 | After a successful update, a read by the same caller returns the updated ticket |
| TicketProperties.CommentThenGet | src/controllers/ticketController.js:213-225 | After a successful comment, a read returns the ticket, whose last comment is the new one |
| TicketProperties.AddCommentIndex | src/controllers/ticketController.js:208-225 | A successful comment wrote to the one ticket with the id, which the caller can access |
| TicketProperties.CommentExtends | src/controllers/ticketController.js:213-225 | Commenting on an accessible ticket succeeds and extends its comments by exactly the new one |
| TicketProperties.CommentsInCallOrder | src/controllers/ticketController.js:213-225 | Two comments on one ticket follow the earlier ones, in call order |

## Left out

- Authentication (src/middleware/auth.js) is not modelled: token verification and the user lookup are left out. The routes behind it take the caller as `Option<Identity>`. None stands for every 401 answer the middleware gives.
- User.js and the dashboard's route file are not part of this model. `Users` keeps only the fields the core reads. The dashboard takes `Option<Identity>` because the controller itself does not guard the missing caller.
- authController.js, authRoutes.js, index.js and seeder.js are left out: login, wiring and seeding.
- `populate` joins and the response envelopes are presentation. References stay ids.
- isEmail(), normalizeEmail() and isHexColor() are library predicates. They are parameters (`Basics.Validators`) and stay uninterpreted. The model does not assume that normalizeEmail() keeps a non-blank address non-blank, which the real library does.
- Ids are naturals, and a fresh one is one more than the largest in use. ObjectId generation is abstracted, and so is the CastError a malformed id raises (a 500 in the handlers).
- Times are naturals supplied by the caller as `now`. The clock is not modelled.
- Concurrency and the atomicity of `$push` and `findOneAndUpdate` are left out. The model is sequential.
- No operation of the core writes attachments, so they are carried along unchanged.
- The handlers' catch-all 500 for store failures is modelled only where the code's own data leads to it: a schema failure on create, page 0 on list, and the missing caller on the dashboard.
- DashboardController.GetDashboardStats: the answer to a request with no caller is the handler's own 500. The route file src/routes/dashboardRoutes.js is not part of this model, so a 401 from an authentication middleware placed before the handler is not modelled.
- TicketList.ListTickets: requires the limit in effect to be at least 1. A limit of 0 would mean "no limit" to the store and an infinite page count, and string coercion of the query is not modelled. The `status` and `priority` filters are absent or a single string. Array or operator values that the query parser builds (`?status[$ne]=closed`, `?status=a&status=b`) become Mongo operators in the source and are not modelled. Tickets with equal `createdAt` come out in one fixed order (that of `Sorting.Sort`); the store leaves their order open, even within one query.
- TicketList.ListPagesCover: every page is cut from one fixed newest-first order of the matches. The store does not fix the order of tickets with equal `createdAt` across separate queries. In the source, a ticket that ties another in creation time can therefore be skipped or repeated between pages. NewestFirstUnique shows that the order is forced, and the cover holds, when creation times are distinct.
- Request bodies: every body field is absent or a string (comment content included). JSON `null`, numbers, arrays and objects in a body, and what the validators and Mongoose casts make of them, are not modelled.
- DashboardController.RecentTickets: tickets with equal `createdAt` come out in one fixed order (that of `Sorting.Sort`), and GetDashboardStats returns exactly that panel. The store leaves their order open, so which of several tied tickets make the five shown is not fixed in the source.
- Text.Lower: lower-cases ASCII letters only. JavaScript's toLowerCase() also maps other scripts.
- CategoryRoutes.PriorityValue: integers are unbounded. Large values do not lose precision as JavaScript numbers would.
- DashboardController.PriorityStats: `$group` leaves the row order unspecified. The model fixes declaration order, and the contract constrains only the set of rows.
- DashboardController.CategoryStats: the row order is likewise fixed, to first occurrence. The contract constrains only the set of rows.

=== FILE: basics.dfy ===
/** Shared vocabulary: optional values, request outcomes and the error
    taxonomy the controllers answer with, and fresh document identifiers. */
module Basics {

  /** Document identifiers (MongoDB ObjectIds), abstracted to naturals. */
  type Id = nat

  datatype Option<+T> = None | Some(value: T)

  /** What a controller answers: a value (2xx) or an error response. */
  datatype Result<+T> = Ok(value: T) | Err(error: Error)

  /** The error responses of the ticket and category controllers. */
  datatype Error =
    | ValidationFailed(fields: seq<string>)   // express-validator rejected these body fields
    | Unauthorized                            // the route needs a token and none was given
    | TicketNotFound                          // absent, or outside the caller's scope
    | DuplicateCategoryName                   // the unique index on Category.name fired
    | ServerError                             // any other exception, caught and logged

  function HttpStatus(e: Error): (code: nat)
    ensures 400 <= code < 600
    ensures code == 400 <==> e.ValidationFailed? || e.DuplicateCategoryName?
  {
    match e
    case ValidationFailed(_) => 400
    case Unauthorized => 401
    case TicketNotFound => 404
    case DuplicateCategoryName => 400
    case ServerError => 500
  }

  /** The validator library's own predicates and sanitizers, which the
      model leaves uninterpreted: isEmail(), normalizeEmail() and
      isHexColor(). */
  datatype Validators = Validators(
    isEmail: string -> bool,
    normalizeEmail: string -> string,
    isHexColor: string -> bool)

  /** One validator rule's contribution to the error list: the field's
      name when the rule fails, nothing when it holds. */
  function Rule(holds: bool, field: string): seq<string> {
    if holds then [] else [field]
  }

  /** Largest identifier in `ids`, or 0 for none. */
  function MaxId(ids: seq<Id>): (m: Id)
    ensures forall i :: 0 <= i < |ids| ==> ids[i] <= m
    ensures |ids| > 0 ==> m in ids
  {
    if |ids| == 0 then 0
    else
      var rest := MaxId(ids[1..]);
      if ids[0] >= rest then ids[0] else rest
  }

  /** An identifier not yet used by any document in `ids`: the store
      generates a new ObjectId for every insert. */
  function FreshId(ids: seq<Id>): (r: Id)
    ensures r !in ids
    ensures forall i :: 0 <= i < |ids| ==> ids[i] < r
  {
    MaxId(ids) + 1
  }
}

=== FILE: category_controller.dfy ===
/** The category handlers: the public listing of active categories in
    display order, and creation under the unique-name index. */
module CategoryController {
  import opened Basics
  import opened Text
  import opened Seqs
  import opened Sorting
  import opened Users
  import opened CategoryModel
  import opened CategoryRoutes
  import opened Db

  /** A successful insert: the store after it and the category it
      returns. */
  datatype CategoryWrite = CategoryWrite(store: Store, category: Category)

  function IsActive(c: Category): bool {
    c.isActive
  }

  /** getCategories: `find({isActive: true})` sorted by priority, then by
      name. */
  function GetCategories(st: Store): (r: seq<Category>)
    ensures SortedBy(r, DisplayOrder)
    ensures multiset(r) == multiset(Filter(st.categories, IsActive))
    ensures forall c :: c in r <==> c in st.categories && c.isActive
  {
    DisplayOrderIsTotalPreorder();
    var r := Sort(Filter(st.categories, IsActive), DisplayOrder);
    assert forall c :: c in r <==> c in multiset(r);
    r
  }

  /** Because names are unique, the listing order is fully determined:
      any arrangement of the active categories that is in display order
      is the listing. */
  lemma {:induction false} GetCategoriesDeterministic(st: Store, other: seq<Category>)
    requires UniqueNames(st.categories)
    requires SortedBy(other, DisplayOrder)
    requires multiset(other) == multiset(Filter(st.categories, IsActive))
    ensures other == GetCategories(st)
  {
    var r := GetCategories(st);
    forall x, y | x in multiset(other) && y in multiset(other) && DisplayOrder(x, y) && DisplayOrder(y, x)
      ensures x == y
    {
      DisplayOrderAntisymmetric(x, y);
      assert x in st.categories && y in st.categories;
      var i :| 0 <= i < |st.categories| && st.categories[i] == x;
      var j :| 0 <= j < |st.categories| && st.categories[j] == y;
      assert !(i < j) && !(j < i);
    }
    SortedUnique(other, r, DisplayOrder);
  }

  /** The document createCategory saves for a validated body: trimmed
      name and description, the colour and priority given or their
      defaults, active, under a fresh id. */
  function CategoryFromRequest(st: Store, body: CreateCategoryBody): (c: Category)
    requires OptionalPriorityOk(body.priority)
    ensures c.id !in CategoryIds(st.categories)
    ensures c.name == Trim(body.name) && c.isActive
    ensures c.description.None? <==> body.description.None?
    ensures c.description.Some? ==> c.description.value == Trim(body.description.value)
    ensures body.color.Some? ==> c.color == body.color.value
    ensures body.color.None? ==> c.color == DefaultColor
    ensures body.priority.Some? ==> Some(c.priority) == ParseInt(body.priority.value) && c.priority >= 1
    ensures body.priority.None? ==> c.priority == DefaultPriority
  {
    var b := SanitizeCreateCategory(body);
    var id := FreshId(CategoryIds(st.categories));
    TrimIdempotent(body.name);
    match body.description
    case Some(d) =>
      TrimIdempotent(d);
      NewCategory(id, b.name, b.description, b.color, PriorityValue(b.priority))
    case None =>
      NewCategory(id, b.name, b.description, b.color, PriorityValue(b.priority))
  }

  /** createCategory. Any authenticated caller may create a category;
      the role is not checked. */
  function CreateCategory(st: Store, auth: Option<Identity>, body: CreateCategoryBody, v: Validators)
    : (r: Result<CategoryWrite>)
    ensures auth.None? ==> r == Err(Unauthorized)
    ensures auth.Some? ==>
      (r == Err(ValidationFailed(CreateCategoryErrors(body, v))) <==> CreateCategoryErrors(body, v) != [])
    ensures auth.Some? && CreateCategoryErrors(body, v) == [] ==>
      (r == Err(DuplicateCategoryName) <==> NameTaken(st.categories, Trim(body.name)))
    ensures r.Err? ==> !r.error.ServerError? && !r.error.TicketNotFound?
    ensures r.Ok? ==>
      && auth.Some? && CreateCategoryErrors(body, v) == []
      && !NameTaken(st.categories, Trim(body.name))
      && r.value.category == CategoryFromRequest(st, body)
      && r.value.store == st.(categories := st.categories + [r.value.category])
  {
    if auth.None? then Err(Unauthorized)
    else
      var errs := CreateCategoryErrors(body, v);
      if errs != [] then Err(ValidationFailed(errs))
      else
        var c := CategoryFromRequest(st, body);
        if NameTaken(st.categories, c.name) then Err(DuplicateCategoryName)
        else Ok(CategoryWrite(st.(categories := st.categories + [c]), c))
  }

  /** Appending a category with a fresh id and an unused name keeps ids
      and names distinct. */
  lemma AppendKeepsUnique(cats: seq<Category>, c: Category)
    requires UniqueIds(cats) && UniqueNames(cats)
    requires c.id !in CategoryIds(cats) && !NameTaken(cats, c.name)
    ensures UniqueIds(cats + [c]) && UniqueNames(cats + [c])
  {
    var all := cats + [c];
    forall i, j | 0 <= i < j < |all| ensures all[i].id != all[j].id && all[i].name != all[j].name {
      if j == |cats| {
        assert CategoryIds(cats)[i] == all[i].id;
      }
    }
  }

  /** Creating a category keeps the store valid: its id is fresh and the
      index has just confirmed its name is new. */
  lemma CreateCategoryKeepsValid(st: Store, auth: Option<Identity>, body: CreateCategoryBody, v: Validators)
    requires Valid(st)
    requires CreateCategory(st, auth, body, v).Ok?
    ensures Valid(CreateCategory(st, auth, body, v).value.store)
  {
    var w := CreateCategory(st, auth, body, v).value;
    AppendKeepsUnique(st.categories, w.category);
    assert w.store.tickets == st.tickets;
  }

  /** A created category is listed at once, since every new category is
      active. */
  lemma CreatedCategoryIsListed(st: Store, auth: Option<Identity>, body: CreateCategoryBody, v: Validators)
    requires CreateCategory(st, auth, body, v).Ok?
    ensures var w := CreateCategory(st, auth, body, v).value;
      w.category in GetCategories(w.store)
  {
  }
}

=== FILE: category_model.dfy ===
/** The Category document: a routing bucket for tickets, with a unique
    trimmed name, display colour and priority, and a soft on/off switch. */
module CategoryModel {
  import opened Basics
  import opened Text
  import Sorting

  /** Colour a category gets when none is supplied. */
  const DefaultColor: string := "#3B82F6"

  /** Display priority a category gets when none is supplied. */
  const DefaultPriority: int := 1

  datatype Category = Category(
    id: Id,
    name: string,
    description: Option<string>,
    color: string,
    isActive: bool,
    priority: int)

  /** The document `new Category({...})` builds from the request fields:
      name and description trimmed, missing fields at their defaults, and
      every new category active. */
  function NewCategory(id: Id, name: string, description: Option<string>,
                       color: Option<string>, priority: Option<int>): (c: Category)
    ensures IsTrimmed(c.name) && c.isActive
    ensures c.description.Some? ==> IsTrimmed(c.description.value)
  {
    Category(
      id,
      Trim(name),
      match description case Some(d) => Some(Trim(d)) case None => None,
      match color case Some(k) => k case None => DefaultColor,
      true,
      match priority case Some(p) => p case None => DefaultPriority)
  }

  /** The unique index on `name`: no two categories share a name. */
  predicate UniqueNames(cats: seq<Category>) {
    forall i, j :: 0 <= i < j < |cats| ==> cats[i].name != cats[j].name
  }

  predicate UniqueIds(cats: seq<Category>) {
    forall i, j :: 0 <= i < j < |cats| ==> cats[i].id != cats[j].id
  }

  predicate NameTaken(cats: seq<Category>, name: string) {
    exists i :: 0 <= i < |cats| && cats[i].name == name
  }

  /** Display order: by priority, then by name. */
  predicate DisplayOrder(a: Category, b: Category) {
    a.priority < b.priority || (a.priority == b.priority && StrLe(a.name, b.name))
  }

  lemma DisplayOrderIsTotalPreorder()
    ensures Sorting.TotalPreorder(DisplayOrder)
  {
    forall a, b ensures DisplayOrder(a, b) || DisplayOrder(b, a) {
      StrLeTotal(a.name, b.name);
    }
    forall a, b, c | DisplayOrder(a, b) && DisplayOrder(b, c) ensures DisplayOrder(a, c) {
      if a.priority == b.priority == c.priority {
        StrLeTransitive(a.name, b.name, c.name);
      }
    }
  }

  /** Among categories with distinct names, display order leaves no ties:
      two categories that precede each other are the same one. */
  lemma DisplayOrderAntisymmetric(a: Category, b: Category)
    requires DisplayOrder(a, b) && DisplayOrder(b, a)
    ensures a.priority == b.priority && a.name == b.name
  {
    StrLeAntisymmetric(a.name, b.name);
  }
}

=== FILE: category_routes.dfy ===
/** The declarative request validator of the category routes and the
    sanitizing it does on the body. */
module CategoryRoutes {
  import opened Basics
  import opened Text

  /** The schema-independent limit createCategoryValidation puts on
      names. */
  const MaxNameLength: nat := 100

  /** A category submission: a missing name is the empty string; the
      optional fields are None when absent. */
  datatype CreateCategoryBody = CreateCategoryBody(
    name: string,
    description: Option<string>,
    color: Option<string>,
    priority: Option<string>)

  predicate NameOk(name: string) {
    1 <= ValidatorLength(Trim(name)) <= MaxNameLength
  }

  predicate OptionalColorOk(color: Option<string>, v: Validators) {
    color.None? || v.isHexColor(color.value)
  }

  /** isInt({min: 1}): integer syntax whose value is at least 1. */
  predicate OptionalPriorityOk(priority: Option<string>) {
    priority.None? || (ParseInt(priority.value).Some? && ParseInt(priority.value).value >= 1)
  }

  /** The fields createCategoryValidation rejects, in declaration order
      (the description rule only sanitizes, so it never rejects). */
  function CreateCategoryErrors(b: CreateCategoryBody, v: Validators): (errs: seq<string>)
    ensures errs == [] <==> NameOk(b.name) && OptionalColorOk(b.color, v) && OptionalPriorityOk(b.priority)
    ensures "description" !in errs
  {
    Rule(NameOk(b.name), "name")
    + Rule(OptionalColorOk(b.color, v), "color")
    + Rule(OptionalPriorityOk(b.priority), "priority")
  }

  /** The body as the handler receives it: name and a present description
      trimmed in place. */
  function SanitizeCreateCategory(b: CreateCategoryBody): (r: CreateCategoryBody)
    ensures IsTrimmed(r.name)
    ensures r.description.Some? <==> b.description.Some?
    ensures r.description.Some? ==> IsTrimmed(r.description.value)
    ensures r.color == b.color && r.priority == b.priority
  {
    b.(name := Trim(b.name),
       description := match b.description case Some(d) => Some(Trim(d)) case None => None)
  }

  /** The priority a validated body carries, once cast to a number; the
      default when absent. */
  function PriorityValue(priority: Option<string>): (r: Option<int>)
    requires OptionalPriorityOk(priority)
    ensures priority.None? <==> r.None?
    ensures r.Some? ==> r.value >= 1 && ParseInt(priority.value) == r
  {
    match priority
    case None => None
    case Some(p) => ParseInt(p)
  }
}

=== FILE: dashboard.dfy ===
/** getDashboardStats: counts by status, the priority histogram, the
    newest tickets and, for superadmins, a per-category histogram. The
    ticket scope is the assignee rule of Scope.CanAccess. */
module DashboardController {
  import opened Basics
  import opened Seqs
  import opened Sorting
  import opened Users
  import opened TicketModel
  import CategoryModel
  import opened Scope
  import opened Db
  import TicketList
  import CategoryController

  /** How many tickets the "recent" panel shows. */
  const RecentLimit: nat := 5

  datatype Counts = Counts(total: nat, open: nat, inProgress: nat, resolved: nat, closed: nat, totalCat: nat)

  /** One `$group` row of the priority histogram. */
  datatype PriorityCount = PriorityCount(priority: Priority, count: nat)

  /** One row of the category histogram after `$lookup` and `$unwind`. */
  datatype CategoryCount = CategoryCount(category: Id, name: string, count: nat)

  datatype Dashboard = Dashboard(
    stats: Counts,
    priorityStats: seq<PriorityCount>,
    categoryStats: seq<CategoryCount>,
    recentTickets: seq<Ticket>)

  function WithStatus(s: Status): Ticket -> bool {
    (t: Ticket) => t.status == s
  }

  function WithPriority(p: Priority): Ticket -> bool {
    (t: Ticket) => t.priority == p
  }

  function InCategory(c: Id): Ticket -> bool {
    (t: Ticket) => t.category == c
  }

  /** Every ticket has exactly one status, so the four status counts add
      up to the total. */
  lemma {:induction false} StatusCountsSum(ts: seq<Ticket>)
    ensures |Filter(ts, WithStatus(Open))| + |Filter(ts, WithStatus(InProgress))|
          + |Filter(ts, WithStatus(Resolved))| + |Filter(ts, WithStatus(Closed))| == |ts|
  {
    if |ts| > 0 {
      StatusCountsSum(ts[1..]);
    }
  }

  /** Every ticket has exactly one priority, so the four priority counts
      add up to the total. */
  lemma {:induction false} PriorityCountsSum(ts: seq<Ticket>)
    ensures |Filter(ts, WithPriority(Low))| + |Filter(ts, WithPriority(Medium))|
          + |Filter(ts, WithPriority(High))| + |Filter(ts, WithPriority(Urgent))| == |ts|
  {
    if |ts| > 0 {
      PriorityCountsSum(ts[1..]);
    }
  }

  /** The priorities in declaration order. */
  const AllPriorities: seq<Priority> := [Low, Medium, High, Urgent]

  function HasCount(r: PriorityCount): bool {
    r.count > 0
  }

  /** The row of `p` in the histogram of `ts`. */
  function PriorityRow(ts: seq<Ticket>, p: Priority): PriorityCount {
    PriorityCount(p, |Filter(ts, WithPriority(p))|)
  }

  /** The row of every priority, in declaration order. */
  function PriorityTable(ts: seq<Ticket>): (all: seq<PriorityCount>)
    ensures forall p :: PriorityRow(ts, p) in all
    ensures forall e :: e in all ==> e == PriorityRow(ts, e.priority)
    ensures forall i, j :: 0 <= i < j < |all| ==> all[i].priority != all[j].priority
  {
    var all := [PriorityRow(ts, Low), PriorityRow(ts, Medium), PriorityRow(ts, High), PriorityRow(ts, Urgent)];
    assert forall p :: PriorityRow(ts, p) in all by {
      forall p ensures PriorityRow(ts, p) in all {
        if p == Low {
          assert PriorityRow(ts, p) == all[0];
        } else if p == Medium {
          assert PriorityRow(ts, p) == all[1];
        } else if p == High {
          assert PriorityRow(ts, p) == all[2];
        } else {
          assert PriorityRow(ts, p) == all[3];
        }
      }
    }
    all
  }

  /** `$group` by priority: one row for each priority that occurs, with
      its number of tickets (rows in declaration order). */
  function PriorityStats(ts: seq<Ticket>): (r: seq<PriorityCount>)
    ensures forall e :: e in r <==> e.count > 0 && e == PriorityRow(ts, e.priority)
    ensures forall i, j :: 0 <= i < j < |r| ==> r[i].priority != r[j].priority
  {
    var all := PriorityTable(ts);
    var r := Filter(all, HasCount);
    FilterOrder(all, HasCount, r);
    r
  }

  /** Filtering keeps rows in order, so rows with distinct priorities
      stay distinct. */
  lemma {:induction false} FilterOrder(all: seq<PriorityCount>, p: PriorityCount -> bool, r: seq<PriorityCount>)
    requires forall i, j :: 0 <= i < j < |all| ==> all[i].priority != all[j].priority
    requires r == Filter(all, p)
    ensures forall i, j :: 0 <= i < j < |r| ==> r[i].priority != r[j].priority
  {
    if |all| > 0 {
      var rest := Filter(all[1..], p);
      FilterOrder(all[1..], p, rest);
      assert forall x :: x in rest ==> x in all[1..];
    }
  }

  /** A priority has a histogram row exactly when some ticket has it. */
  lemma PriorityRowIffPresent(ts: seq<Ticket>, p: Priority)
    ensures (exists i :: 0 <= i < |PriorityStats(ts)| && PriorityStats(ts)[i].priority == p)
        <==> exists t :: t in ts && t.priority == p
  {
    var r := PriorityStats(ts);
    var row := PriorityRow(ts, p);
    if exists t :: t in ts && t.priority == p {
      var t :| t in ts && t.priority == p;
      assert t in Filter(ts, WithPriority(p));
      assert row in r;
    }
    if exists i :: 0 <= i < |r| && r[i].priority == p {
      var i :| 0 <= i < |r| && r[i].priority == p;
      assert r[i] in r;
      var f := Filter(ts, WithPriority(p));
      assert f[0] in f;
    }
  }

  /** Sum of a histogram's counts. */
  function TotalCount(rows: seq<PriorityCount>): nat {
    if |rows| == 0 then 0 else rows[0].count + TotalCount(rows[1..])
  }

  lemma {:induction false} TotalCountDropsEmpty(rows: seq<PriorityCount>)
    ensures TotalCount(Filter(rows, HasCount)) == TotalCount(rows)
  {
    if |rows| > 0 {
      TotalCountDropsEmpty(rows[1..]);
    }
  }

  /** The histogram accounts for every ticket once. */
  lemma PriorityStatsSum(ts: seq<Ticket>)
    ensures TotalCount(PriorityStats(ts)) == |ts|
  {
    var all := PriorityTable(ts);
    TotalCountDropsEmpty(all);
    PriorityCountsSum(ts);
    assert TotalCount(all[3..]) == all[3].count;
    assert TotalCount(all[2..]) == all[2].count + TotalCount(all[3..]);
    assert TotalCount(all[1..]) == all[1].count + TotalCount(all[2..]);
  }

  /** `find(query).sort({createdAt: -1}).limit(5)`. */
  function RecentTickets(scoped: seq<Ticket>): (r: seq<Ticket>)
    ensures |r| == Min(RecentLimit, |scoped|)
    ensures SortedBy(r, TicketList.NewerFirst)
    ensures multiset(r) <= multiset(scoped)
    ensures forall t :: t in r ==> t in scoped
  {
    var s := TicketList.SortNewestFirst(scoped);
    var r := Take(s, RecentLimit);
    assert s == r + s[|r|..];
    assert multiset(s) == multiset(r) + multiset(s[|r|..]);
    assert forall t :: t in r ==> t in multiset(scoped);
    r
  }

  /** The panel holds the newest tickets: every ticket it leaves out is
      no newer than any it shows. */
  lemma RecentAreNewest(scoped: seq<Ticket>, t: Ticket, i: nat)
    requires i < |RecentTickets(scoped)|
    requires t in multiset(scoped) - multiset(RecentTickets(scoped))
    ensures RecentTickets(scoped)[i].createdAt >= t.createdAt
  {
    var s := TicketList.SortNewestFirst(scoped);
    var r := RecentTickets(scoped);
    assert s == r + s[|r|..];
    assert multiset(s) == multiset(r) + multiset(s[|r|..]);
    assert t in multiset(s[|r|..]);
    var j :| 0 <= j < |s[|r|..]| && s[|r|..][j] == t;
    assert TicketList.NewerFirst(s[i], s[|r| + j]);
  }

  /** The category ids of `ts`, each once, in order of first
      occurrence. */
  function GroupIds(ts: seq<Ticket>): (ids: seq<Id>)
    ensures forall c :: c in ids <==> exists t :: t in ts && t.category == c
    ensures forall i, j :: 0 <= i < j < |ids| ==> ids[i] != ids[j]
  {
    if |ts| == 0 then []
    else
      var front := ts[..|ts| - 1];
      var last := ts[|ts| - 1];
      var ids := GroupIds(front);
      assert ts == front + [last];
      if last.category in ids then ids else ids + [last.category]
  }

  function HasId(c: Id): CategoryModel.Category -> bool {
    (k: CategoryModel.Category) => k.id == c
  }

  /** A row of the category histogram of `ts` against `cats`: a group's
      id, the name of a category document with that id, and the group's
      size. */
  predicate IsCategoryRow(ts: seq<Ticket>, cats: seq<CategoryModel.Category>, row: CategoryCount) {
    && |Filter(ts, InCategory(row.category))| == row.count
    && exists k :: k in cats && k.id == row.category && k.name == row.name
  }

  /** `$lookup` then `$unwind` for the groups `ids`: one row per group and
      matching category document; a group with no document drops out. */
  function LookupRows(ids: seq<Id>, cats: seq<CategoryModel.Category>, ts: seq<Ticket>): (rows: seq<CategoryCount>)
    ensures forall row :: row in rows <==> row.category in ids && IsCategoryRow(ts, cats, row)
  {
    if |ids| == 0 then []
    else
      var c := ids[0];
      var n := |Filter(ts, InCategory(c))|;
      var matches := Filter(cats, HasId(c));
      var head := seq(|matches|, i requires 0 <= i < |matches| => CategoryCount(c, matches[i].name, n));
      var rest := LookupRows(ids[1..], cats, ts);
      assert forall row :: row in head <==> row.category == c && IsCategoryRow(ts, cats, row) by {
        forall row ensures row in head <==> row.category == c && IsCategoryRow(ts, cats, row) {
          if row.category == c && IsCategoryRow(ts, cats, row) {
            var k :| k in cats && k.id == row.category && k.name == row.name;
            assert k in matches;
            var i :| 0 <= i < |matches| && matches[i] == k;
            assert head[i] == row;
          }
          if row in head {
            var i :| 0 <= i < |head| && head[i] == row;
            assert matches[i] in matches;
          }
        }
      }
      assert forall x :: x in ids <==> x == c || x in ids[1..] by {
        assert ids == [c] + ids[1..];
      }
      head + rest
  }

  /** The category histogram, which only superadmins receive. It counts
      every ticket, not just the caller's. */
  function CategoryStats(st: Store): (rows: seq<CategoryCount>)
    ensures forall row :: row in rows <==> row.count > 0 && IsCategoryRow(st.tickets, st.categories, row)
  {
    var ids := GroupIds(st.tickets);
    var rows := LookupRows(ids, st.categories, st.tickets);
    assert forall c :: c in ids <==> |Filter(st.tickets, InCategory(c))| > 0 by {
      forall c ensures c in ids <==> |Filter(st.tickets, InCategory(c))| > 0 {
        var f := Filter(st.tickets, InCategory(c));
        if |f| > 0 {
          assert f[0] in f;
        }
        if c in ids {
          var t :| t in st.tickets && t.category == c;
          assert t in f;
        }
      }
    }
    rows
  }

  /** getDashboardStats. It reads the caller from the request without a
      guard, so a request that reaches it without one fails with a server
      error; the route in front of it is not modelled. */
  function GetDashboardStats(st: Store, auth: Option<Identity>): (r: Result<Dashboard>)
    ensures auth.None? ==> r == Err(ServerError)
    ensures r.Ok? <==> auth.Some?
    ensures r.Ok? ==>
      var d := r.value;
      var scoped := Accessible(auth.value, st.tickets);
      && d.stats.total == |scoped|
      && d.stats.open + d.stats.inProgress + d.stats.resolved + d.stats.closed == d.stats.total
      && d.stats.open == |Filter(scoped, WithStatus(Open))|
      && d.stats.inProgress == |Filter(scoped, WithStatus(InProgress))|
      && d.stats.resolved == |Filter(scoped, WithStatus(Resolved))|
      && d.stats.closed == |Filter(scoped, WithStatus(Closed))|
      && d.stats.totalCat == |CategoryController.GetCategories(st)|
      && d.priorityStats == PriorityStats(scoped)
      && d.recentTickets == RecentTickets(scoped)
      && (forall t :: t in d.recentTickets ==> t in st.tickets && CanAccess(auth.value, t))
      && (auth.value.role == Admin ==> d.categoryStats == [])
      && (auth.value.role == SuperAdmin ==> d.stats.total == |st.tickets| && d.categoryStats == CategoryStats(st))
  {
    match auth
    case None => Err(ServerError)
    case Some(actor) =>
      var scoped := Accessible(actor, st.tickets);
      StatusCountsSum(scoped);
      var active := Filter(st.categories, CategoryController.IsActive);
      assert |active| == |CategoryController.GetCategories(st)| by {
        assert |multiset(active)| == |multiset(CategoryController.GetCategories(st))|;
      }
      var stats := Counts(
        |scoped|,
        |Filter(scoped, WithStatus(Open))|,
        |Filter(scoped, WithStatus(InProgress))|,
        |Filter(scoped, WithStatus(Resolved))|,
        |Filter(scoped, WithStatus(Closed))|,
        |active|);
      Ok(Dashboard(stats, PriorityStats(scoped),
                   if actor.role == SuperAdmin then CategoryStats(st) else [],
                   RecentTickets(scoped)))
  }
}

=== FILE: db.dfy ===
/** The backing store: the three collections the core reads and writes,
    and the invariant every operation keeps. */
module Db {
  import opened Basics
  import opened TicketModel
  import opened Users
  import CategoryModel

  datatype Store = Store(
    tickets: seq<Ticket>,
    users: seq<User>,
    categories: seq<CategoryModel.Category>)

  /** The ids of `docs`, in order, as `id` reads them off a document. */
  function IdsOf<T>(docs: seq<T>, id: T -> Id): (ids: seq<Id>)
    ensures |ids| == |docs|
    ensures forall i :: 0 <= i < |docs| ==> ids[i] == id(docs[i])
  {
    seq(|docs|, i requires 0 <= i < |docs| => id(docs[i]))
  }

  function TicketIds(ts: seq<Ticket>): (ids: seq<Id>) {
    IdsOf(ts, (t: Ticket) => t.id)
  }

  function CategoryIds(cats: seq<CategoryModel.Category>): (ids: seq<Id>) {
    IdsOf(cats, (c: CategoryModel.Category) => c.id)
  }

  predicate UniqueTicketIds(ts: seq<Ticket>) {
    forall i, j :: 0 <= i < j < |ts| ==> ts[i].id != ts[j].id
  }

  /** Ticket ids are distinct and every ticket is well formed; category
      ids and names are distinct. */
  predicate Valid(st: Store) {
    && UniqueTicketIds(st.tickets)
    && (forall i :: 0 <= i < |st.tickets| ==> WellFormed(st.tickets[i]))
    && CategoryModel.UniqueIds(st.categories)
    && CategoryModel.UniqueNames(st.categories)
  }
}

=== FILE: scope.dfy ===
/** Which tickets a caller may see and act on. The ticket handlers use two
    different rules: reading, updating and commenting on one ticket (and
    the dashboard) key on the assignee, while the list keys on the
    caller's category. */
module Scope {
  import opened Basics
  import opened Users
  import opened TicketModel
  import opened Seqs

  /** Single-ticket reads and writes and the dashboard: an admin reaches
      only the tickets assigned to it; anyone else reaches every ticket. */
  predicate CanAccess(actor: Identity, t: Ticket) {
    actor.role == Admin ==> t.assignedTo == Some(actor.userId)
  }

  /** The list: an admin bound to a category sees that category's
      tickets; anyone else sees every ticket. */
  predicate ListVisible(actor: Identity, t: Ticket) {
    actor.role == Admin && actor.category.Some? ==> t.category == actor.category.value
  }

  /** The tickets `actor` can access, in store order. */
  function Accessible(actor: Identity, ts: seq<Ticket>): (r: seq<Ticket>)
    ensures forall t :: t in r <==> t in ts && CanAccess(actor, t)
    ensures actor.role == SuperAdmin ==> r == ts
    ensures actor.role == Admin ==>
      forall t :: t in r <==> t in ts && t.assignedTo == Some(actor.userId)
  {
    var r := Filter(ts, t => CanAccess(actor, t));
    if actor.role == SuperAdmin then FilterAll(ts, t => CanAccess(actor, t)); r else r
  }

  /** The scoped tickets keep each accessible ticket as often as the store
      holds it and drop every other, so every count taken over the scope
      counts the accessible tickets of the store. */
  lemma AccessibleCounts(actor: Identity, ts: seq<Ticket>, t: Ticket)
    ensures multiset(Accessible(actor, ts))[t] == if CanAccess(actor, t) then multiset(ts)[t] else 0
  {
    FilterMultiset(ts, t => CanAccess(actor, t), t);
  }

  /** An unassigned ticket is reachable through get, update and comment
      by superadmins only. */
  lemma UnassignedOnlySuperadmin(actor: Identity, t: Ticket)
    requires t.assignedTo.None?
    ensures CanAccess(actor, t) <==> actor.role == SuperAdmin
  {
  }

  /** The two rules disagree in both directions: an admin may see a
      ticket of its category in the list that it cannot open, and may open
      a ticket assigned to it that its list hides. */
  lemma ScopesDisagree()
    ensures exists a: Identity, t: Ticket :: ListVisible(a, t) && !CanAccess(a, t)
    ensures exists a: Identity, t: Ticket :: CanAccess(a, t) && !ListVisible(a, t)
  {
    var admin := Identity(1, Admin, Some(10));
    var colleagues := Ticket(100, "t", "d", 10, Open, Medium, Some(2), "a@b.c", "A", [], [], None, None, 0, 0);
    assert ListVisible(admin, colleagues) && !CanAccess(admin, colleagues);
    var elsewhere := colleagues.(category := 11, assignedTo := Some(1));
    assert CanAccess(admin, elsewhere) && !ListVisible(admin, elsewhere);
  }
}

=== FILE: seqs.dfy ===
/** Sequence operations standing in for the store's query primitives:
    `find(query)` is a filter, `sort` an ordering (see Sorting), `limit`
    and `skip` a window (see TicketList). */
module Seqs {

  /** The elements of `s` that satisfy `p`, in their original order. */
  function Filter<T(!new)>(s: seq<T>, p: T -> bool): (r: seq<T>)
    ensures |r| <= |s|
    ensures forall x :: x in r <==> x in s && p(x)
    ensures forall i :: 0 <= i < |r| ==> p(r[i])
  {
    if |s| == 0 then []
    else if p(s[0]) then [s[0]] + Filter(s[1..], p)
    else Filter(s[1..], p)
  }

  /** A filter keeps every copy of a selected element and no copy of
      any other: it fixes the multiplicities, and so every count taken of
      its result. */
  lemma {:induction false} FilterMultiset<T(!new)>(s: seq<T>, p: T -> bool, x: T)
    ensures multiset(Filter(s, p))[x] == if p(x) then multiset(s)[x] else 0
  {
    if |s| > 0 {
      var rest := s[1..];
      FilterMultiset(rest, p, x);
      assert s == [s[0]] + rest;
      assert multiset(s) == multiset{s[0]} + multiset(rest);
      if p(s[0]) {
        assert Filter(s, p) == [s[0]] + Filter(rest, p);
        assert multiset(Filter(s, p)) == multiset{s[0]} + multiset(Filter(rest, p));
      } else {
        assert Filter(s, p) == Filter(rest, p);
      }
    }
  }

  /** Filtering a sequence with a given first element. */
  lemma FilterCons<T(!new)>(x: T, t: seq<T>, p: T -> bool)
    ensures Filter([x] + t, p) == (if p(x) then [x] else []) + Filter(t, p)
  {
  }

  /** Filtering a concatenation filters each part, in order. */
  lemma {:induction false} FilterAppend<T(!new)>(a: seq<T>, b: seq<T>, p: T -> bool)
    ensures Filter(a + b, p) == Filter(a, p) + Filter(b, p)
  {
    if |a| == 0 {
      assert a + b == b;
    } else {
      var x, rest := a[0], a[1..];
      var kept := if p(x) then [x] else [];
      calc {
        Filter(a + b, p);
        { assert a + b == [x] + (rest + b); }
        Filter([x] + (rest + b), p);
        { FilterCons(x, rest + b, p); }
        kept + Filter(rest + b, p);
        { FilterAppend(rest, b, p); }
        kept + (Filter(rest, p) + Filter(b, p));
        (kept + Filter(rest, p)) + Filter(b, p);
        { FilterCons(x, rest, p); assert a == [x] + rest; }
        Filter(a, p) + Filter(b, p);
      }
    }
  }

  /** One element is kept exactly when it satisfies `p`. Together with
      FilterAppend this fixes the result, order included: the selected
      elements of `s` in the order of `s`. */
  lemma FilterSingleton<T(!new)>(x: T, p: T -> bool)
    ensures Filter([x], p) == if p(x) then [x] else []
  {
  }

  /** Two predicates that agree on every element select the same
      elements. */
  lemma {:induction false} FilterCongruent<T(!new)>(s: seq<T>, p: T -> bool, q: T -> bool)
    requires forall i :: 0 <= i < |s| ==> p(s[i]) == q(s[i])
    ensures Filter(s, p) == Filter(s, q)
  {
    if |s| > 0 {
      FilterCongruent(s[1..], p, q);
    }
  }

  /** A predicate every element satisfies selects the whole sequence. */
  lemma {:induction false} FilterAll<T(!new)>(s: seq<T>, p: T -> bool)
    requires forall i :: 0 <= i < |s| ==> p(s[i])
    ensures Filter(s, p) == s
  {
    if |s| > 0 {
      FilterAll(s[1..], p);
      assert s == [s[0]] + s[1..];
    }
  }

  /** Position of the first element satisfying `p`, or |s| when there is
      none: the document a `findOne` query returns. */
  function FirstIndex<T>(s: seq<T>, p: T -> bool): (k: nat)
    ensures k <= |s|
    ensures forall j :: 0 <= j < k ==> !p(s[j])
    ensures k < |s| ==> p(s[k])
  {
    if |s| == 0 || p(s[0]) then 0 else 1 + FirstIndex(s[1..], p)
  }

  function Min(a: int, b: int): int {
    if a <= b then a else b
  }

  /** The first `n` elements of `s` (all of them when there are fewer). */
  function Take<T>(s: seq<T>, n: nat): (r: seq<T>)
    ensures |r| == Min(n, |s|)
    ensures r == s[..|r|]
  {
    if n <= |s| then s[..n] else s
  }
}

=== FILE: sorting.dfy ===
/** Ordering results the way the store's `sort` does: by a total preorder
    on documents (ties may come out in either order). */
module Sorting {

  /** `le` relates every pair one way or the other. */
  ghost predicate Total<T(!new)>(le: (T, T) -> bool) {
    forall a, b :: le(a, b) || le(b, a)
  }

  /** `le` is total and transitive: an ordering that may have ties. */
  ghost predicate TotalPreorder<T(!new)>(le: (T, T) -> bool) {
    && Total(le)
    && (forall a, b, c :: le(a, b) && le(b, c) ==> le(a, c))
  }

  /** Every element comes no later than the elements after it. */
  ghost predicate SortedBy<T>(s: seq<T>, le: (T, T) -> bool) {
    forall i, j :: 0 <= i < j < |s| ==> le(s[i], s[j])
  }

  /** An element that precedes everything in a sorted sequence can go in
      front of it. */
  lemma SortedCons<T>(h: T, t: seq<T>, le: (T, T) -> bool)
    requires SortedBy(t, le)
    requires forall k :: 0 <= k < |t| ==> le(h, t[k])
    ensures SortedBy([h] + t, le)
  {
    var r := [h] + t;
    forall i, j | 0 <= i < j < |r| ensures le(r[i], r[j]) {
      assert r[j] == t[j - 1];
      if i > 0 {
        assert r[i] == t[i - 1];
      }
    }
  }

  /** Places `x` into the sorted sequence `s`, before the first element it
      precedes. */
  function Insert<T(!new)>(x: T, s: seq<T>, le: (T, T) -> bool): (r: seq<T>)
    requires TotalPreorder(le)
    requires SortedBy(s, le)
    ensures SortedBy(r, le)
    ensures multiset(r) == multiset(s) + multiset{x}
  {
    if |s| == 0 then [x]
    else if le(x, s[0]) then
      assert forall k :: 0 <= k < |s| ==> le(x, s[k]) by {
        forall k | 0 < k < |s| ensures le(x, s[k]) {
          assert le(s[0], s[k]);
        }
      }
      SortedCons(x, s, le);
      [x] + s
    else
      var rest := s[1..];
      var tail := Insert(x, rest, le);
      assert s == [s[0]] + rest;
      assert le(s[0], x);
      assert forall k :: 0 <= k < |tail| ==> le(s[0], tail[k]) by {
        forall k | 0 <= k < |tail| ensures le(s[0], tail[k]) {
          assert tail[k] in multiset(tail);
          if tail[k] != x {
            assert tail[k] in multiset(rest);
            var m :| 0 <= m < |rest| && rest[m] == tail[k];
            assert s[m + 1] == rest[m];
          }
        }
      }
      SortedCons(s[0], tail, le);
      [s[0]] + tail
  }

  /** Insertion sort: a permutation of `s` that is sorted by `le`. */
  function Sort<T(!new)>(s: seq<T>, le: (T, T) -> bool): (r: seq<T>)
    requires TotalPreorder(le)
    ensures SortedBy(r, le)
    ensures multiset(r) == multiset(s)
    ensures |r| == |s|
  {
    if |s| == 0 then []
    else
      var r := Insert(s[0], Sort(s[1..], le), le);
      assert s == [s[0]] + s[1..];
      assert |r| == |multiset(r)|;
      r
  }

  /** Two sorted arrangements of the same elements start with elements
      that precede each other. */
  lemma SortedHeadsTie<T>(a: seq<T>, b: seq<T>, le: (T, T) -> bool)
    requires SortedBy(a, le) && SortedBy(b, le)
    requires multiset(a) == multiset(b) && |a| > 0
    ensures |b| > 0
    ensures a[0] == b[0] || (le(a[0], b[0]) && le(b[0], a[0]))
  {
    assert |b| == |multiset(b)| == |multiset(a)| == |a|;
    assert a[0] in multiset(b) && b[0] in multiset(a);
    var j :| 0 <= j < |b| && b[j] == a[0];
    var i :| 0 <= i < |a| && a[i] == b[0];
    if j > 0 && i > 0 {
      assert le(b[0], b[j]) && le(a[0], a[i]);
    }
  }

  /** When `le` leaves no ties between distinct elements, sorting has only
      one possible outcome: two sorted arrangements of the same elements
      are equal. */
  lemma {:induction false} SortedUnique<T(!new)>(a: seq<T>, b: seq<T>, le: (T, T) -> bool)
    requires SortedBy(a, le) && SortedBy(b, le)
    requires multiset(a) == multiset(b)
    requires forall x, y :: x in multiset(a) && y in multiset(a) && le(x, y) && le(y, x) ==> x == y
    ensures a == b
    decreases |a|
  {
    if |a| == 0 {
      assert |multiset(b)| == 0;
    } else {
      SortedHeadsTie(a, b, le);
      assert a[0] in multiset(a) && b[0] in multiset(a);
      assert a[0] == b[0];
      assert multiset(a) == multiset{a[0]} + multiset(a[1..]) by {
        assert a == [a[0]] + a[1..];
      }
      assert multiset(b) == multiset{b[0]} + multiset(b[1..]) by {
        assert b == [b[0]] + b[1..];
      }
      assert multiset(a[1..]) <= multiset(a);
      SortedUnique(a[1..], b[1..], le);
    }
  }
}

=== FILE: text.dfy ===
/** String handling the schemas and validators rely on: whitespace
    trimming (String.prototype.trim and the validator's trim() remove the
    same characters), lower-casing, code-point ordering of names, and the
    integer syntax accepted by isInt() together with its numeric value. */
module Text {
  import opened Basics

  /** The characters JavaScript's `\s` class matches: white space and line
      terminators. */
  predicate IsSpace(c: char) {
    || c == ' ' || c == '\t' || c == '\n' || c == '\U{000B}' || c == '\U{000C}' || c == '\r'
    || c == '\U{00A0}' || c == '\U{1680}' || ('\U{2000}' <= c <= '\U{200A}')
    || c == '\U{2028}' || c == '\U{2029}' || c == '\U{202F}' || c == '\U{205F}'
    || c == '\U{3000}' || c == '\U{FEFF}'
  }

  predicate AllSpace(s: string) {
    forall i :: 0 <= i < |s| ==> IsSpace(s[i])
  }

  /** Neither end of `s` is white space. */
  predicate IsTrimmed(s: string) {
    s == [] || (!IsSpace(s[0]) && !IsSpace(s[|s| - 1]))
  }

  function TrimStart(s: string): (r: string)
    ensures |r| <= |s|
    decreases |s|
  {
    if s != [] && IsSpace(s[0]) then TrimStart(s[1..]) else s
  }

  /** TrimStart cuts a prefix of white space and stops at the first other
      character. */
  lemma {:induction false} TrimStartCut(s: string)
    ensures var r := TrimStart(s);
      && r == s[|s| - |r|..]
      && AllSpace(s[..|s| - |r|])
      && (r != [] ==> !IsSpace(r[0]))
    decreases |s|
  {
    if s != [] && IsSpace(s[0]) {
      TrimStartCut(s[1..]);
      var r := TrimStart(s[1..]);
      assert s[..|s| - |r|] == [s[0]] + s[1..][..|s| - 1 - |r|];
    }
  }

  function TrimEnd(s: string): (r: string)
    ensures |r| <= |s|
    decreases |s|
  {
    if s != [] && IsSpace(s[|s| - 1]) then TrimEnd(s[..|s| - 1]) else s
  }

  /** TrimEnd cuts a suffix of white space and stops at the last other
      character. */
  lemma {:induction false} TrimEndCut(s: string)
    ensures var r := TrimEnd(s);
      && r == s[..|r|]
      && AllSpace(s[|r|..])
      && (r != [] ==> !IsSpace(r[|r| - 1]))
    decreases |s|
  {
    if s != [] && IsSpace(s[|s| - 1]) {
      TrimEndCut(s[..|s| - 1]);
      var r := TrimEnd(s[..|s| - 1]);
      assert s[|r|..] == s[..|s| - 1][|r|..] + [s[|s| - 1]];
    }
  }

  /** Removes leading and trailing white space; the result has white
      space at neither end (TrimInfix says what is cut). */
  function Trim(s: string): (r: string)
    ensures |r| <= |s| && IsTrimmed(r)
  {
    var t := TrimStart(s);
    var r := TrimEnd(t);
    TrimStartCut(s);
    TrimEndCut(t);
    assert r != [] ==> r[0] == t[0];
    r
  }

  /** Trim leaves the infix of `s` that remains after cutting white space
      only from both ends. */
  lemma TrimInfix(s: string) returns (a: nat, b: nat)
    ensures a <= b <= |s| && Trim(s) == s[a..b]
    ensures AllSpace(s[..a]) && AllSpace(s[b..])
  {
    var t := TrimStart(s);
    var r := TrimEnd(t);
    TrimStartCut(s);
    TrimEndCut(t);
    a := |s| - |t|;
    b := a + |r|;
    assert r == s[a..b];
    assert s[b..] == t[|r|..];
  }

  /** Trimming an already trimmed string changes nothing. */
  lemma TrimOfTrimmed(s: string)
    requires IsTrimmed(s)
    ensures Trim(s) == s
  {
    if s != [] {
      var a, b := TrimInfix(s);
    }
  }

  /** Applying trim twice (as a route validator and then a schema setter
      do) is the same as applying it once. */
  lemma TrimIdempotent(s: string)
    ensures Trim(Trim(s)) == Trim(s)
  {
    TrimOfTrimmed(Trim(s));
  }

  /** Trimming empties exactly the strings made of white space only. */
  lemma TrimEmptyIff(s: string)
    ensures Trim(s) == [] <==> AllSpace(s)
  {
    var a, b := TrimInfix(s);
    if Trim(s) == [] {
      assert a == b;
      forall i | 0 <= i < |s| ensures IsSpace(s[i]) {
        if i < a { assert s[..a][i] == s[i]; } else { assert s[b..][i - b] == s[i]; }
      }
    } else {
      assert Trim(s)[0] == s[a];
    }
  }

  /** A JavaScript string's `length`: UTF-16 code units, so a character
      outside the Basic Multilingual Plane counts twice. The schema's
      `maxlength` compares against this. */
  function Utf16Length(s: string): (n: nat)
    ensures |s| <= n <= 2 * |s|
  {
    if s == [] then 0 else (if s[0] as int > 0xFFFF then 2 else 1) + Utf16Length(s[1..])
  }

  /** The variation selectors the validator's isLength() does not count. */
  predicate IsVariationSelector(c: char) {
    c == '\U{FE0E}' || c == '\U{FE0F}'
  }

  /** The length isLength() checks: code points (a surrogate pair counts
      once), leaving out variation selectors. */
  function ValidatorLength(s: string): (n: nat)
    ensures n <= |s|
    ensures n == 0 <==> forall i :: 0 <= i < |s| ==> IsVariationSelector(s[i])
  {
    if s == [] then 0 else (if IsVariationSelector(s[0]) then 0 else 1) + ValidatorLength(s[1..])
  }

  /** Characters outside the Basic Multilingual Plane each count once for
      the validator and twice for the schema. */
  lemma {:induction false} AstralLengths(s: string)
    requires forall i :: 0 <= i < |s| ==> s[i] as int > 0xFFFF
    ensures ValidatorLength(s) == |s| && Utf16Length(s) == 2 * |s|
  {
    if s != [] {
      AstralLengths(s[1..]);
    }
  }

  function LowerChar(c: char): char {
    if 'A' <= c <= 'Z' then (c as int + 32) as char else c
  }

  /** No upper-case ASCII letter in `s`. */
  predicate IsLower(s: string) {
    forall i :: 0 <= i < |s| ==> !('A' <= s[i] <= 'Z')
  }

  /** Lower-cases the ASCII letters of `s`, character by character. */
  function Lower(s: string): (r: string)
    ensures |r| == |s| && IsLower(r)
    ensures forall i :: 0 <= i < |s| ==> r[i] == LowerChar(s[i])
  {
    seq(|s|, i requires 0 <= i < |s| => LowerChar(s[i]))
  }

  /** Lower-casing never turns white space into text or back, so the
      email setters (trim, lowercase) give the same result in either
      order. */
  lemma LowerCharKeepsSpace(c: char)
    ensures IsSpace(LowerChar(c)) == IsSpace(c)
  {
  }

  lemma {:induction false} LowerTrimStartCommute(s: string)
    ensures TrimStart(Lower(s)) == Lower(TrimStart(s))
    decreases |s|
  {
    if s != [] {
      var l := Lower(s);
      assert l[0] == LowerChar(s[0]);
      LowerCharKeepsSpace(s[0]);
      if IsSpace(s[0]) {
        assert l[1..] == Lower(s[1..]);
        calc {
          TrimStart(l);
          TrimStart(l[1..]);
          { LowerTrimStartCommute(s[1..]); }
          Lower(TrimStart(s[1..]));
          Lower(TrimStart(s));
        }
      } else {
        assert TrimStart(l) == l;
        assert TrimStart(s) == s;
      }
    }
  }

  lemma {:induction false} LowerTrimEndCommute(s: string)
    ensures TrimEnd(Lower(s)) == Lower(TrimEnd(s))
    decreases |s|
  {
    if s != [] {
      var l := Lower(s);
      assert l[|s| - 1] == LowerChar(s[|s| - 1]);
      LowerCharKeepsSpace(s[|s| - 1]);
      if IsSpace(s[|s| - 1]) {
        assert l[..|s| - 1] == Lower(s[..|s| - 1]);
        calc {
          TrimEnd(l);
          TrimEnd(l[..|s| - 1]);
          { LowerTrimEndCommute(s[..|s| - 1]); }
          Lower(TrimEnd(s[..|s| - 1]));
          Lower(TrimEnd(s));
        }
      } else {
        assert TrimEnd(l) == l;
        assert TrimEnd(s) == s;
      }
    }
  }

  lemma LowerTrimCommute(s: string)
    ensures Trim(Lower(s)) == Lower(Trim(s))
  {
    LowerTrimStartCommute(s);
    LowerTrimEndCommute(TrimStart(s));
  }

  /** Code-point lexicographic order, which is how the store compares
      strings when it sorts without a collation. */
  predicate StrLe(a: string, b: string)
    decreases |a|
  {
    |a| == 0 || (|b| > 0 && (a[0] < b[0] || (a[0] == b[0] && StrLe(a[1..], b[1..]))))
  }

  lemma {:induction false} StrLeTotal(a: string, b: string)
    ensures StrLe(a, b) || StrLe(b, a)
    decreases |a|
  {
    if |a| > 0 && |b| > 0 && a[0] == b[0] {
      StrLeTotal(a[1..], b[1..]);
    }
  }

  lemma {:induction false} StrLeTransitive(a: string, b: string, c: string)
    requires StrLe(a, b) && StrLe(b, c)
    ensures StrLe(a, c)
    decreases |a|
  {
    if |a| > 0 && a[0] == b[0] && b[0] == c[0] {
      StrLeTransitive(a[1..], b[1..], c[1..]);
    }
  }

  lemma {:induction false} StrLeAntisymmetric(a: string, b: string)
    requires StrLe(a, b) && StrLe(b, a)
    ensures a == b
    decreases |a|
  {
    if |a| > 0 {
      StrLeAntisymmetric(a[1..], b[1..]);
      assert a == [a[0]] + a[1..] && b == [b[0]] + b[1..];
    }
  }

  predicate IsDigit(c: char) {
    '0' <= c <= '9'
  }

  predicate AllDigits(s: string) {
    forall i :: 0 <= i < |s| ==> IsDigit(s[i])
  }

  function DigitValue(c: char): nat
    requires IsDigit(c)
  {
    c as int - '0' as int
  }

  function DigitChar(d: nat): (c: char)
    requires d < 10
    ensures IsDigit(c) && DigitValue(c) == d
  {
    ('0' as int + d) as char
  }

  /** Decimal value of a digit string, most significant digit first. */
  function DigitsValue(s: string): nat
    requires AllDigits(s)
    decreases |s|
  {
    if |s| == 0 then 0 else DigitsValue(s[..|s| - 1]) * 10 + DigitValue(s[|s| - 1])
  }

  /** The integer a request field denotes once isInt() accepted it and the
      schema cast it to a Number: an optional sign followed by at least one
      digit (leading zeros allowed); None for any other text. */
  function ParseInt(s: string): (r: Option<int>)
    ensures r.Some? <==>
      (|s| > 0 && AllDigits(s)) || (|s| > 1 && (s[0] == '+' || s[0] == '-') && AllDigits(s[1..]))
    ensures r.Some? && |s| > 0 && s[0] == '-' ==> r.value <= 0
    ensures r.Some? && |s| > 0 && s[0] != '-' ==> r.value >= 0
  {
    if |s| > 1 && (s[0] == '+' || s[0] == '-') && AllDigits(s[1..]) then
      var v: int := DigitsValue(s[1..]);
      Some(if s[0] == '-' then -v else v)
    else if |s| > 0 && AllDigits(s) then
      Some(DigitsValue(s))
    else
      None
  }

  /** Canonical decimal text of a natural number. */
  function ShowNat(n: nat): (s: string)
    ensures |s| > 0 && AllDigits(s)
  {
    if n < 10 then [DigitChar(n)] else ShowNat(n / 10) + [DigitChar(n % 10)]
  }

  function ShowInt(n: int): (s: string) {
    if n < 0 then "-" + ShowNat(-n) else ShowNat(n)
  }

  lemma {:induction false} DigitsValueOfShowNat(n: nat)
    ensures DigitsValue(ShowNat(n)) == n
  {
    var s := ShowNat(n);
    if n >= 10 {
      DigitsValueOfShowNat(n / 10);
      assert s[..|s| - 1] == ShowNat(n / 10);
    }
  }

  /** Parsing the canonical text of an integer gives the integer back. */
  lemma ParseShowInt(n: int)
    ensures ParseInt(ShowInt(n)) == Some(n)
  {
    if n < 0 {
      DigitsValueOfShowNat(-n);
      assert ShowInt(n)[1..] == ShowNat(-n);
    } else {
      DigitsValueOfShowNat(n);
      var s := ShowNat(n);
      assert !(s[0] == '+' || s[0] == '-') by { assert IsDigit(s[0]); }
    }
  }
}

=== FILE: ticket_controller.dfy ===
/** The ticket handlers that create, read and change one ticket:
    createTicket with its automatic assignment, and getTicketById,
    updateTicket and addComment under the assignee scope. The list handler
    is in TicketList. */
module TicketController {
  import opened Basics
  import opened Text
  import opened Seqs
  import opened Users
  import opened TicketModel
  import opened Scope
  import opened Db
  import opened TicketRoutes

  /** A successful write: the store after it and the ticket it returns. */
  datatype TicketWrite = TicketWrite(store: Store, ticket: Ticket)

  /** A user that may take a new ticket of `category`: an active admin
      bound to it. */
  predicate Assignable(u: User, category: Id) {
    u.category == Some(category) && u.role == Admin && u.isActive
  }

  /** The handler for a new ticket of `category`: the first assignable
      user in store order, or none. */
  function FindAssignee(users: seq<User>, category: Id): (r: Option<Id>)
    ensures r.None? <==> forall i :: 0 <= i < |users| ==> !Assignable(users[i], category)
    ensures r.Some? ==>
      exists i :: 0 <= i < |users| && users[i].id == r.value && Assignable(users[i], category)
        && forall j :: 0 <= j < i ==> !Assignable(users[j], category)
  {
    var k := FirstIndex(users, u => Assignable(u, category));
    if k < |users| then Some(users[k].id) else None
  }

  function PriorityOrDefault(priority: Option<string>): (p: Priority)
    requires OptionalPriorityOk(priority)
    ensures priority.None? ==> p == DefaultPriority
    ensures priority.Some? ==> PriorityName(p) == priority.value
  {
    match priority
    case None => DefaultPriority
    case Some(x) => ParsePriority(x).value
  }

  /** The document createTicket builds from a validated body: the
      requested priority or "medium", status "open", no completion times,
      comments or attachments, both timestamps at `now`, and the category's
      first active admin (or nobody) as assignee. */
  function TicketFromRequest(st: Store, body: CreateTicketBody, v: Validators, now: nat): (t: Ticket)
    requires CreateTicketErrors(body, v) == []
    ensures t.id !in TicketIds(st.tickets)
    ensures SettersApplied(t) && Stamped(t)
    ensures Some(t.category) == body.category
    ensures t.status == Open
    ensures body.priority.None? ==> t.priority == Medium
    ensures body.priority.Some? ==> PriorityName(t.priority) == body.priority.value
    ensures t.resolvedAt.None? && t.closedAt.None?
    ensures t.comments == [] && t.attachments == []
    ensures t.createdAt == now && t.updatedAt == now
    ensures t.assignedTo.None? <==> forall i :: 0 <= i < |st.users| ==> !Assignable(st.users[i], t.category)
    ensures t.assignedTo.Some? ==>
      exists i :: 0 <= i < |st.users| && st.users[i].id == t.assignedTo.value && Assignable(st.users[i], t.category)
    ensures t.assignedTo == FindAssignee(st.users, t.category)
  {
    var b := SanitizeCreateTicket(body, v);
    NewTicket(FreshId(TicketIds(st.tickets)), b.title, b.description, b.category.value,
              PriorityOrDefault(b.priority), b.customerEmail, b.customerName,
              FindAssignee(st.users, b.category.value), now)
  }

  /** The strings of a ticket built from a validated body: route trim and
      schema trim together trim once, so title, description and name are
      the trimmed request fields and pass the schema's checks; the email is
      the normalized one, trimmed and lower-cased, and is empty only when
      normalization left nothing but white space. */
  lemma TicketFromRequestStrings(st: Store, body: CreateTicketBody, v: Validators, now: nat)
    requires CreateTicketErrors(body, v) == []
    ensures var t := TicketFromRequest(st, body, v, now);
      && t.title == Trim(body.title) && t.title != []
      && t.description == Trim(body.description) && t.description != []
      && t.customerName == Trim(body.customerName) && t.customerName != []
      && t.customerEmail == Lower(Trim(v.normalizeEmail(body.customerEmail)))
      && (t.customerEmail == [] <==> AllSpace(v.normalizeEmail(body.customerEmail)))
  {
    TrimIdempotent(body.title);
    TrimIdempotent(body.description);
    TrimIdempotent(body.customerName);
  }

  /** createTicket: validate, build the document and save it; the save
      fails with a server error when the document breaks the schema
      (CreateTicketServerError says when). No authentication is
      involved. */
  function CreateTicket(st: Store, body: CreateTicketBody, v: Validators, now: nat): (r: Result<TicketWrite>)
    ensures r.Err? ==> r.error.ValidationFailed? || r.error == ServerError
    ensures r.Err? && r.error.ValidationFailed? <==> CreateTicketErrors(body, v) != []
    ensures r.Ok? ==>
      && CreateTicketErrors(body, v) == []
      && r.value.ticket == TicketFromRequest(st, body, v, now)
      && r.value.store == st.(tickets := st.tickets + [r.value.ticket])
      && WellFormed(r.value.ticket)
  {
    var errs := CreateTicketErrors(body, v);
    if errs != [] then Err(ValidationFailed(errs))
    else
      var t := TicketFromRequest(st, body, v, now);
      if !SchemaValid(t) then Err(ServerError)
      else Ok(TicketWrite(st.(tickets := st.tickets + [t]), t))
  }

  /** The schema accepts a document built from a validated body exactly
      when normalizing the email left something besides white space and
      the title's JavaScript length is within 200: the route validator
      guarantees the rest, but it counts a character outside the Basic
      Multilingual Plane once where the schema counts two. */
  lemma TicketFromRequestSchema(st: Store, body: CreateTicketBody, v: Validators, now: nat)
    requires CreateTicketErrors(body, v) == []
    ensures SchemaValid(TicketFromRequest(st, body, v, now)) <==>
      !AllSpace(v.normalizeEmail(body.customerEmail)) && Utf16Length(Trim(body.title)) <= MaxTitleLength
  {
    TrimIdempotent(body.title);
    TrimIdempotent(body.description);
    TrimIdempotent(body.customerName);
  }

  /** A validated submission is saved unless its normalized email is
      blank or its title is too long in UTF-16 units, in which case the
      save fails with a server error. */
  lemma CreateTicketServerError(st: Store, body: CreateTicketBody, v: Validators, now: nat)
    requires CreateTicketErrors(body, v) == []
    ensures CreateTicket(st, body, v, now) == Err(ServerError) <==>
      AllSpace(v.normalizeEmail(body.customerEmail)) || Utf16Length(Trim(body.title)) > MaxTitleLength
    ensures CreateTicket(st, body, v, now).Ok? <==>
      !AllSpace(v.normalizeEmail(body.customerEmail)) && Utf16Length(Trim(body.title)) <= MaxTitleLength
  {
    TicketFromRequestSchema(st, body, v, now);
  }

  /** A title of 101 to 200 characters, all outside the Basic
      Multilingual Plane, passes the route's length check yet is longer
      than 200 UTF-16 units. */
  lemma WideTitle(title: string)
    requires forall i :: 0 <= i < |title| ==> title[i] as int > 0xFFFF
    requires 100 < |title| <= MaxTitleLength
    ensures TitleOk(title) && Utf16Length(Trim(title)) > MaxTitleLength
  {
    assert !IsSpace(title[0]) && !IsSpace(title[|title| - 1]);
    TrimOfTrimmed(title);
    AstralLengths(title);
  }

  /** A submission whose title, description and name are 150 emoji each
      passes validation, but the save is refused with a server error
      rather than a validation error. */
  lemma WideTitleServerError(st: Store, now: nat)
    ensures var text := seq(150, i => '\U{1F600}');
      var body := CreateTicketBody(text, text, Some(0), "a@b.c", text, None);
      var v := Validators(e => true, e => e, c => true);
      CreateTicketErrors(body, v) == [] && CreateTicket(st, body, v, now) == Err(ServerError)
  {
    var text := seq(150, i => '\U{1F600}');
    var body := CreateTicketBody(text, text, Some(0), "a@b.c", text, None);
    var v := Validators(e => true, e => e, c => true);
    WideTitle(text);
    CreateTicketServerError(st, body, v, now);
  }

  /** The `{_id: id}` query, narrowed to the assignee for admins. */
  function ItemQuery(actor: Identity, id: Id): Ticket -> bool {
    (t: Ticket) => t.id == id && CanAccess(actor, t)
  }

  /** getTicketById. */
  function GetTicket(st: Store, auth: Option<Identity>, id: Id): (r: Result<Ticket>)
    ensures auth.None? ==> r == Err(Unauthorized)
    ensures r.Err? ==> r.error == Unauthorized || r.error == TicketNotFound
    ensures auth.Some? ==>
      (r.Ok? <==> exists i :: 0 <= i < |st.tickets| && st.tickets[i].id == id && CanAccess(auth.value, st.tickets[i]))
    ensures auth.Some? && auth.value.role == Admin ==>
      (r.Ok? <==> exists i :: 0 <= i < |st.tickets| && st.tickets[i].id == id
                               && st.tickets[i].assignedTo == Some(auth.value.userId))
    ensures auth.Some? && auth.value.role == SuperAdmin ==>
      (r.Ok? <==> exists i :: 0 <= i < |st.tickets| && st.tickets[i].id == id)
    ensures r.Ok? ==> r.value in st.tickets && r.value.id == id && CanAccess(auth.value, r.value)
  {
    match auth
    case None => Err(Unauthorized)
    case Some(actor) =>
      var k := FirstIndex(st.tickets, ItemQuery(actor, id));
      if k < |st.tickets| then Ok(st.tickets[k]) else Err(TicketNotFound)
  }

  /** The change updateTicket sends to the store: a supplied status
      replaces the old one and, when it is resolved or closed, stamps the
      matching completion time; a supplied priority replaces the old one;
      every other field except the update time is kept. */
  function ApplyUpdate(t: Ticket, status: Option<Status>, priority: Option<Priority>, now: nat): (u: Ticket)
    ensures status.None? ==> u.status == t.status
    ensures status.Some? ==> u.status == status.value
    ensures status == Some(Resolved) ==> u.resolvedAt == Some(now)
    ensures status != Some(Resolved) ==> u.resolvedAt == t.resolvedAt
    ensures status == Some(Closed) ==> u.closedAt == Some(now)
    ensures status != Some(Closed) ==> u.closedAt == t.closedAt
    ensures priority.None? ==> u.priority == t.priority
    ensures priority.Some? ==> u.priority == priority.value
    ensures u.updatedAt == now
    ensures u.(status := t.status, priority := t.priority, resolvedAt := t.resolvedAt,
               closedAt := t.closedAt, updatedAt := t.updatedAt) == t
    ensures WellFormed(t) ==> WellFormed(u)
  {
    var withStatus :=
      match status
      case None => t
      case Some(Resolved) => t.(status := Resolved, resolvedAt := Some(now))
      case Some(Closed) => t.(status := Closed, closedAt := Some(now))
      case Some(s) => t.(status := s);
    var withPriority :=
      match priority
      case None => withStatus
      case Some(p) => withStatus.(priority := p);
    withPriority.(updatedAt := now)
  }

  /** A validated optional enumeration field, parsed. */
  function StatusField(status: Option<string>): (r: Option<Status>)
    requires OptionalStatusOk(status)
    ensures status.None? <==> r.None?
    ensures r.Some? ==> StatusName(r.value) == status.value
  {
    match status
    case None => None
    case Some(x) => ParseStatus(x)
  }

  function PriorityField(priority: Option<string>): (r: Option<Priority>)
    requires OptionalPriorityOk(priority)
    ensures priority.None? <==> r.None?
    ensures r.Some? ==> PriorityName(r.value) == priority.value
  {
    match priority
    case None => None
    case Some(x) => ParsePriority(x)
  }

  /** updateTicket: authenticate, validate, then change the first ticket
      with `id` in the caller's scope; every other ticket is untouched. */
  function UpdateTicket(st: Store, auth: Option<Identity>, id: Id, body: UpdateTicketBody, now: nat): (r: Result<TicketWrite>)
    ensures auth.None? ==> r == Err(Unauthorized)
    ensures auth.Some? && UpdateTicketErrors(body) != [] ==> r == Err(ValidationFailed(UpdateTicketErrors(body)))
    ensures auth.Some? && UpdateTicketErrors(body) == [] ==>
      (r.Ok? <==> exists i :: 0 <= i < |st.tickets| && st.tickets[i].id == id && CanAccess(auth.value, st.tickets[i]))
    ensures r.Ok? ==>
      && auth.Some? && UpdateTicketErrors(body) == []
      && r.value.store.users == st.users && r.value.store.categories == st.categories
      && exists i :: 0 <= i < |st.tickets| && st.tickets[i].id == id && CanAccess(auth.value, st.tickets[i])
           && r.value.store.tickets == st.tickets[i := r.value.ticket]
           && r.value.ticket == ApplyUpdate(st.tickets[i], StatusField(body.status), PriorityField(body.priority), now)
    ensures r.Ok? ==>
      forall j :: 0 <= j < |st.tickets| && !ItemQuery(auth.value, id)(st.tickets[j]) ==>
        r.value.store.tickets[j] == st.tickets[j]
  {
    match auth
    case None => Err(Unauthorized)
    case Some(actor) =>
      var errs := UpdateTicketErrors(body);
      if errs != [] then Err(ValidationFailed(errs))
      else
        var k := FirstIndex(st.tickets, ItemQuery(actor, id));
        if k == |st.tickets| then Err(TicketNotFound)
        else
          var u := ApplyUpdate(st.tickets[k], StatusField(body.status), PriorityField(body.priority), now);
          Ok(TicketWrite(st.(tickets := st.tickets[k := u]), u))
  }

  /** The `$push` of addComment: one comment by `author` at `now`, after
      the existing ones, which stay as they were. */
  function AppendComment(t: Ticket, content: Option<string>, author: Id, now: nat): (u: Ticket)
    ensures |u.comments| == |t.comments| + 1
    ensures u.comments[..|t.comments|] == t.comments
    ensures u.comments[|t.comments|] == Comment(content, author, now)
    ensures u.updatedAt == now
    ensures u.(comments := t.comments, updatedAt := t.updatedAt) == t
    ensures WellFormed(t) ==> WellFormed(u)
  {
    t.(comments := t.comments + [Comment(content, author, now)], updatedAt := now)
  }

  /** addComment: authenticate, then append to the first ticket with `id`
      in the caller's scope. The content is not validated: an empty or
      absent body is appended as it is. */
  function AddComment(st: Store, auth: Option<Identity>, id: Id, content: Option<string>, now: nat): (r: Result<TicketWrite>)
    ensures auth.None? ==> r == Err(Unauthorized)
    ensures r.Err? ==> r.error == Unauthorized || r.error == TicketNotFound
    ensures auth.Some? ==>
      (r.Ok? <==> exists i :: 0 <= i < |st.tickets| && st.tickets[i].id == id && CanAccess(auth.value, st.tickets[i]))
    ensures r.Ok? ==>
      && r.value.store.users == st.users && r.value.store.categories == st.categories
      && exists i :: 0 <= i < |st.tickets| && st.tickets[i].id == id && CanAccess(auth.value, st.tickets[i])
           && r.value.store.tickets == st.tickets[i := r.value.ticket]
           && r.value.ticket == AppendComment(st.tickets[i], content, auth.value.userId, now)
    ensures r.Ok? ==>
      forall j :: 0 <= j < |st.tickets| && !ItemQuery(auth.value, id)(st.tickets[j]) ==>
        r.value.store.tickets[j] == st.tickets[j]
  {
    match auth
    case None => Err(Unauthorized)
    case Some(actor) =>
      var k := FirstIndex(st.tickets, ItemQuery(actor, id));
      if k == |st.tickets| then Err(TicketNotFound)
      else
        var u := AppendComment(st.tickets[k], content, actor.userId, now);
        Ok(TicketWrite(st.(tickets := st.tickets[k := u]), u))
  }
}

=== FILE: ticket_list.dfy ===
/** getTickets: the paginated ticket list. The scope here is the caller's
    category (see Scope.ListVisible), then the optional status and
    priority filters; results are newest first and cut into pages. */
module TicketList {
  import opened Basics
  import opened Seqs
  import opened Sorting
  import opened Users
  import opened TicketModel
  import opened Scope
  import opened Db

  /** The optional `status` and `priority` query parameters, each
      absent or a single string value. */
  datatype Filters = Filters(status: Option<string>, priority: Option<string>)

  /** Query-string parameters of the list request; `page` and `limit`
      may be absent. */
  datatype ListQuery = ListQuery(page: Option<nat>, limit: Option<nat>, filters: Filters)

  const DefaultPage: nat := 1
  const DefaultLimit: nat := 10

  /** The page number the handler works with: the parameter, or 1. */
  function PageNumber(q: ListQuery): (p: nat) {
    if q.page.Some? then q.page.value else DefaultPage
  }

  /** The page size the handler works with: the parameter, or 10. */
  function PageLimit(q: ListQuery): (l: nat) {
    if q.limit.Some? then q.limit.value else DefaultLimit
  }

  /** One page of results and the pagination block of the response. */
  datatype Page = Page(tickets: seq<Ticket>, page: nat, limit: nat, total: nat, pages: nat)

  /** A filter adds a condition only when present and non-empty: the
      handler tests it for truthiness, and "" is falsy. */
  predicate Given(f: Option<string>) {
    f.Some? && f.value != ""
  }

  predicate MatchesFilters(f: Filters, t: Ticket) {
    && (Given(f.status) ==> StatusName(t.status) == f.status.value)
    && (Given(f.priority) ==> PriorityName(t.priority) == f.priority.value)
  }

  /** The query getTickets sends to the store for `actor`. */
  function ListQueryPredicate(actor: Identity, f: Filters): Ticket -> bool {
    (t: Ticket) => ListVisible(actor, t) && MatchesFilters(f, t)
  }

  /** The filters alone, with no scope. */
  function FiltersOnly(f: Filters): Ticket -> bool {
    (t: Ticket) => MatchesFilters(f, t)
  }

  /** The filters within one category. */
  function FiltersInCategory(c: Id, f: Filters): Ticket -> bool {
    (t: Ticket) => t.category == c && MatchesFilters(f, t)
  }

  /** `sort({createdAt: -1})`: a ticket comes no later than older ones. */
  predicate NewerFirst(a: Ticket, b: Ticket) {
    a.createdAt >= b.createdAt
  }

  lemma NewerFirstIsTotalPreorder()
    ensures TotalPreorder(NewerFirst)
  {
  }

  function SortNewestFirst(ts: seq<Ticket>): (r: seq<Ticket>)
    ensures SortedBy(r, NewerFirst)
    ensures multiset(r) == multiset(ts) && |r| == |ts|
  {
    NewerFirstIsTotalPreorder();
    Sort(ts, NewerFirst)
  }

  /** `pages` pages of `limit` items hold `total` items, and one page
      fewer would not. */
  predicate PageCount(pages: nat, limit: nat, total: nat) {
    pages * limit >= total && (pages == 0 || (pages - 1) * limit < total)
  }

  /** `Math.ceil(n / d)` for naturals: the fewest pages of `d` items that
      hold `n` items. */
  function CeilDiv(n: nat, d: nat): (r: nat)
    requires d > 0
    ensures PageCount(r, d, n)
  {
    (n + d - 1) / d
  }

  /** `.skip(skip).limit(limit)`: at most `limit` consecutive items
      starting at position `skip`. */
  function Window<T>(s: seq<T>, skip: nat, limit: nat): (r: seq<T>)
    ensures |r| <= limit
    ensures skip >= |s| ==> r == []
    ensures skip < |s| ==> |r| == Min(limit, |s| - skip)
    ensures forall i :: 0 <= i < |r| ==> skip + i < |s| && r[i] == s[skip + i]
  {
    if skip >= |s| then [] else Take(s[skip..], limit)
  }

  /** A window of a sorted sequence is sorted. */
  lemma WindowSorted<T>(s: seq<T>, skip: nat, limit: nat, le: (T, T) -> bool)
    requires SortedBy(s, le)
    ensures SortedBy(Window(s, skip, limit), le)
  {
    var r := Window(s, skip, limit);
    forall i, j | 0 <= i < j < |r| ensures le(r[i], r[j]) {
      assert r[i] == s[skip + i] && r[j] == s[skip + j];
    }
  }

  /** One page of `matching`: sorted newest first, then `.skip` past the
      earlier pages and `.limit` to one page. */
  function PageOf(matching: seq<Ticket>, page: nat, limit: nat): (r: Page)
    requires page >= 1 && limit >= 1
    ensures r.page == page && r.limit == limit && r.total == |matching|
    ensures |r.tickets| <= limit
    ensures SortedBy(r.tickets, NewerFirst)
    ensures forall t :: t in r.tickets ==> t in matching
    ensures PageCount(r.pages, limit, r.total)
    ensures r.tickets == Window(SortNewestFirst(matching), Skip(page, limit), limit)
  {
    var sorted := SortNewestFirst(matching);
    var skip := Skip(page, limit);
    var items := Window(sorted, skip, limit);
    WindowSorted(sorted, skip, limit, NewerFirst);
    assert forall t :: t in items ==> t in matching by {
      forall t | t in items ensures t in matching {
        assert t in multiset(sorted);
      }
    }
    Page(items, page, limit, |matching|, CeilDiv(|matching|, limit))
  }

  /** getTickets. Page 0 makes the skip negative, which the store refuses
      (a server error). */
  function ListTickets(st: Store, auth: Option<Identity>, q: ListQuery): (r: Result<Page>)
    requires PageLimit(q) >= 1
    ensures auth.None? ==> r == Err(Unauthorized)
    ensures auth.Some? && PageNumber(q) == 0 ==> r == Err(ServerError)
    ensures r.Ok? <==> auth.Some? && PageNumber(q) >= 1
    ensures r.Ok? ==>
      && r.value.page == PageNumber(q) && r.value.limit == PageLimit(q)
      && |r.value.tickets| <= PageLimit(q)
      && SortedBy(r.value.tickets, NewerFirst)
      && (forall t :: t in r.value.tickets ==>
            t in st.tickets && ListVisible(auth.value, t) && MatchesFilters(q.filters, t))
      && r.value.total == |Filter(st.tickets, ListQueryPredicate(auth.value, q.filters))|
      && PageCount(r.value.pages, PageLimit(q), r.value.total)
      && r.value.tickets ==
           Window(SortNewestFirst(Filter(st.tickets, ListQueryPredicate(auth.value, q.filters))),
                  Skip(PageNumber(q), PageLimit(q)), PageLimit(q))
  {
    match auth
    case None => Err(Unauthorized)
    case Some(actor) =>
      var page, limit := PageNumber(q), PageLimit(q);
      if page == 0 then Err(ServerError)
      else Ok(PageOf(Filter(st.tickets, ListQueryPredicate(actor, q.filters)), page, limit))
  }

  /** A request that names neither page nor limit gets page 1 of 10: the
      ten newest matches, or all of them when there are fewer. */
  lemma DefaultFirstPage(st: Store, actor: Identity, f: Filters)
    ensures var matching := Filter(st.tickets, ListQueryPredicate(actor, f));
      var r := ListTickets(st, Some(actor), ListQuery(None, None, f));
      && r.Ok? && r.value.page == 1 && r.value.limit == 10
      && r.value.tickets == SortNewestFirst(matching)[..Min(10, |matching|)]
  {
  }

  /** What the reported total (ListTickets) counts: for a superadmin, or
      an admin with no category, every ticket that passes the filters; for
      an admin with a category, those of that category only. */
  lemma ListTotal(st: Store, actor: Identity, f: Filters)
    ensures !(actor.role == Admin && actor.category.Some?) ==>
      |Filter(st.tickets, ListQueryPredicate(actor, f))| == |Filter(st.tickets, FiltersOnly(f))|
    ensures actor.role == Admin && actor.category.Some? ==>
      |Filter(st.tickets, ListQueryPredicate(actor, f))| == |Filter(st.tickets, FiltersInCategory(actor.category.value, f))|
  {
    if actor.role == Admin && actor.category.Some? {
      FilterCongruent(st.tickets, ListQueryPredicate(actor, f), FiltersInCategory(actor.category.value, f));
    } else {
      FilterCongruent(st.tickets, ListQueryPredicate(actor, f), FiltersOnly(f));
    }
  }

  /** Items skipped before page `page` (counting pages from 1). */
  function Skip(page: nat, limit: nat): nat
    requires page >= 1
  {
    (page - 1) * limit
  }

  /** The page that holds item `k` (counting from 0) of `total` items is
      within the page count and places `k` inside its window. */
  lemma PageOfItem(k: nat, limit: nat, total: nat) returns (p: nat)
    requires limit >= 1 && k < total
    ensures 1 <= p <= CeilDiv(total, limit)
    ensures Skip(p, limit) <= k < Skip(p, limit) + limit
  {
    p := k / limit + 1;
    var pages := CeilDiv(total, limit);
    assert (p - 1) * limit == (k / limit) * limit;
    if p > pages {
      assert pages <= p - 1;
      MulMonotone(pages, p - 1, limit);
      assert false;
    }
  }

  lemma MulMonotone(a: nat, b: nat, d: nat)
    requires a <= b
    ensures a * d <= b * d
  {
  }

  /** Every item of `matching` is on some page within the page count. */
  lemma PagesCover(matching: seq<Ticket>, limit: nat, t: Ticket)
    requires limit >= 1 && t in matching
    ensures exists p :: 1 <= p <= CeilDiv(|matching|, limit) && t in PageOf(matching, p, limit).tickets
  {
    var sorted := SortNewestFirst(matching);
    assert t in multiset(sorted);
    var k :| 0 <= k < |sorted| && sorted[k] == t;
    var p := PageOfItem(k, limit, |matching|);
    var skip := Skip(p, limit);
    var items := Window(sorted, skip, limit);
    assert items[k - skip] == t;
    assert PageOf(matching, p, limit).tickets == items;
  }

  /** Creation times are pairwise distinct. */
  predicate DistinctCreation(ts: seq<Ticket>) {
    forall i, j :: 0 <= i < j < |ts| ==> ts[i].createdAt != ts[j].createdAt
  }

  /** With distinct creation times, newest first leaves the store no
      choice: any newest-first arrangement of the matches is the one the
      model cuts its pages from, so separate page requests agree on it. */
  lemma NewestFirstUnique(matching: seq<Ticket>, arranged: seq<Ticket>)
    requires DistinctCreation(matching)
    requires SortedBy(arranged, NewerFirst) && multiset(arranged) == multiset(matching)
    ensures arranged == SortNewestFirst(matching)
  {
    var sorted := SortNewestFirst(matching);
    forall x, y | x in multiset(arranged) && y in multiset(arranged) && NewerFirst(x, y) && NewerFirst(y, x)
      ensures x == y
    {
      var i :| 0 <= i < |matching| && matching[i] == x;
      var j :| 0 <= j < |matching| && matching[j] == y;
      assert i == j;
    }
    SortedUnique(arranged, sorted, NewerFirst);
  }

  /** Paging through the list reaches every ticket in scope that passes
      the filters: the k-th newest is on page k div limit + 1, and that
      page is within the page count. */
  lemma ListPagesCover(st: Store, actor: Identity, q: ListQuery, t: Ticket)
    requires PageLimit(q) >= 1
    requires t in st.tickets && ListVisible(actor, t) && MatchesFilters(q.filters, t)
    ensures var pages := ListTickets(st, Some(actor), q.(page := Some(1))).value.pages;
      exists p: nat :: 1 <= p <= pages && t in ListTickets(st, Some(actor), q.(page := Some(p))).value.tickets
  {
    var matching := Filter(st.tickets, ListQueryPredicate(actor, q.filters));
    assert t in matching;
    var limit := PageLimit(q);
    PagesCover(matching, limit, t);
    var p :| 1 <= p <= CeilDiv(|matching|, limit) && t in PageOf(matching, p, limit).tickets;
    assert ListTickets(st, Some(actor), q.(page := Some(1))).value.pages == CeilDiv(|matching|, limit);
    assert ListTickets(st, Some(actor), q.(page := Some(p))).value.tickets == PageOf(matching, p, limit).tickets;
  }

  /** The worked pagination case: 25 results, 10 per page, page 2 holds
      results 11 to 20 and there are 3 pages. */
  lemma SecondPageOfTwentyFive<T>(s: seq<T>)
    requires |s| == 25
    ensures Window(s, Skip(2, 10), 10) == s[10..20]
    ensures CeilDiv(25, 10) == 3
  {
  }
}

=== FILE: ticket_model.dfy ===
/** The Ticket document: its status and priority enumerations with their
    defaults, the comment and attachment lists, and the constraints and
    setters the schema applies when a ticket is saved. */
module TicketModel {
  import opened Basics
  import opened Text

  datatype Status = Open | InProgress | Resolved | Closed

  datatype Priority = Low | Medium | High | Urgent

  /** Value the schema gives `status` when none is supplied. */
  const DefaultStatus: Status := Open

  /** Value the schema (and the create handler) gives `priority` when none
      is supplied. */
  const DefaultPriority: Priority := Medium

  /** The schema's `maxlength` for titles. */
  const MaxTitleLength: nat := 200

  function StatusName(s: Status): string {
    match s
    case Open => "open"
    case InProgress => "in-progress"
    case Resolved => "resolved"
    case Closed => "closed"
  }

  function PriorityName(p: Priority): string {
    match p
    case Low => "low"
    case Medium => "medium"
    case High => "high"
    case Urgent => "urgent"
  }

  /** The status a request string names, if it names one (StatusRoundTrip
      shows every status name is accepted). */
  function ParseStatus(x: string): (r: Option<Status>)
    ensures r.Some? ==> StatusName(r.value) == x
  {
    if x == "open" then Some(Open)
    else if x == "in-progress" then Some(InProgress)
    else if x == "resolved" then Some(Resolved)
    else if x == "closed" then Some(Closed)
    else None
  }

  /** The priority a request string names, if it names one
      (PriorityRoundTrip shows every priority name is accepted). */
  function ParsePriority(x: string): (r: Option<Priority>)
    ensures r.Some? ==> PriorityName(r.value) == x
  {
    if x == "low" then Some(Low)
    else if x == "medium" then Some(Medium)
    else if x == "high" then Some(High)
    else if x == "urgent" then Some(Urgent)
    else None
  }

  /** Printing a status and parsing it back gives the same status. */
  lemma StatusRoundTrip(s: Status)
    ensures ParseStatus(StatusName(s)) == Some(s)
  {
  }

  /** Printing a priority and parsing it back gives the same priority. */
  lemma PriorityRoundTrip(p: Priority)
    ensures ParsePriority(PriorityName(p)) == Some(p)
  {
  }

  /** File metadata only; no operation of the core adds attachments. */
  datatype Attachment = Attachment(filename: Option<string>, url: Option<string>, uploadedAt: nat)

  /** One entry of a ticket's comment trail; the body is absent when the
      request carried none. */
  datatype Comment = Comment(content: Option<string>, author: Id, createdAt: nat)

  /** A support ticket. `category`, `assignedTo` and comment authors are
      references by id; times are in the caller's clock units. */
  datatype Ticket = Ticket(
    id: Id,
    title: string,
    description: string,
    category: Id,
    status: Status,
    priority: Priority,
    assignedTo: Option<Id>,
    customerEmail: string,
    customerName: string,
    attachments: seq<Attachment>,
    comments: seq<Comment>,
    resolvedAt: Option<nat>,
    closedAt: Option<nat>,
    createdAt: nat,
    updatedAt: nat)

  /** The checks the schema runs on save: the required strings are
      non-empty and the title's JavaScript length fits its maximum. */
  predicate SchemaValid(t: Ticket) {
    && 0 < |t.title| && Utf16Length(t.title) <= MaxTitleLength
    && t.description != []
    && t.customerEmail != []
    && t.customerName != []
  }

  /** What the schema's `trim` and `lowercase` setters guarantee of a
      stored ticket. */
  predicate SettersApplied(t: Ticket) {
    && IsTrimmed(t.title)
    && IsTrimmed(t.description)
    && IsTrimmed(t.customerEmail) && IsLower(t.customerEmail)
    && IsTrimmed(t.customerName)
  }

  /** A status that carries a completion time has been stamped with one. */
  predicate Stamped(t: Ticket) {
    && (t.status == Resolved ==> t.resolvedAt.Some?)
    && (t.status == Closed ==> t.closedAt.Some?)
  }

  /** Every ticket the store holds satisfies this. */
  predicate WellFormed(t: Ticket) {
    SchemaValid(t) && SettersApplied(t) && Stamped(t)
  }

  /** The email setters: trim, then lower-case. */
  function CastEmail(email: string): (r: string)
    ensures IsTrimmed(r) && IsLower(r)
    ensures r == [] <==> AllSpace(email)
  {
    var r := Lower(Trim(email));
    LowerTrimCommute(Trim(email));
    TrimIdempotent(email);
    TrimEmptyIff(email);
    r
  }

  /** The document `new Ticket({...})` builds before saving: string
      setters applied, status at its default, no comments, attachments or
      completion times, both timestamps at `now`. */
  function NewTicket(id: Id, title: string, description: string, category: Id, priority: Priority,
                     customerEmail: string, customerName: string, assignedTo: Option<Id>,
                     now: nat): (t: Ticket)
    ensures SettersApplied(t) && Stamped(t)
    ensures t.status == DefaultStatus
    ensures t.comments == [] && t.attachments == []
    ensures t.resolvedAt.None? && t.closedAt.None?
  {
    Ticket(id, Trim(title), Trim(description), category, DefaultStatus, priority, assignedTo,
           CastEmail(customerEmail), Trim(customerName), [], [], None, None, now, now)
  }
}

=== FILE: ticket_properties.dfy ===
/** Properties that relate several ticket operations: every write keeps
    the store valid, a write is visible to the next read, and comments
    accumulate in call order. */
module TicketProperties {
  import opened Basics
  import opened Seqs
  import opened Users
  import opened TicketModel
  import opened Scope
  import opened Db
  import opened TicketRoutes
  import opened TicketController

  /** Replacing the ticket at `i` by one with the same id that is well
      formed keeps the store valid. */
  lemma ReplaceKeepsValid(st: Store, i: nat, u: Ticket)
    requires Valid(st) && i < |st.tickets|
    requires u.id == st.tickets[i].id && WellFormed(u)
    ensures Valid(st.(tickets := st.tickets[i := u]))
  {
    var ts := st.tickets[i := u];
    assert forall j :: 0 <= j < |ts| ==> ts[j].id == st.tickets[j].id;
  }

  /** Appending a well-formed ticket with a fresh id keeps the store
      valid. */
  lemma AppendKeepsValid(st: Store, t: Ticket)
    requires Valid(st)
    requires t.id !in TicketIds(st.tickets) && WellFormed(t)
    ensures Valid(st.(tickets := st.tickets + [t]))
  {
    var ts := st.tickets + [t];
    forall i, j | 0 <= i < j < |ts| ensures ts[i].id != ts[j].id {
      if j == |st.tickets| {
        assert TicketIds(st.tickets)[i] == ts[i].id;
      }
    }
  }

  /** A created ticket has a fresh id and is well formed, so the store
      stays valid. */
  lemma CreateTicketKeepsValid(st: Store, body: CreateTicketBody, v: Validators, now: nat)
    requires Valid(st)
    requires CreateTicket(st, body, v, now).Ok?
    ensures Valid(CreateTicket(st, body, v, now).value.store)
  {
    var w := CreateTicket(st, body, v, now).value;
    assert w.ticket.id !in TicketIds(st.tickets);
    AppendKeepsValid(st, w.ticket);
  }

  lemma UpdateTicketKeepsValid(st: Store, auth: Option<Identity>, id: Id, body: UpdateTicketBody, now: nat)
    requires Valid(st)
    requires UpdateTicket(st, auth, id, body, now).Ok?
    ensures Valid(UpdateTicket(st, auth, id, body, now).value.store)
  {
    var w := UpdateTicket(st, auth, id, body, now).value;
    var i :| 0 <= i < |st.tickets| && st.tickets[i].id == id && CanAccess(auth.value, st.tickets[i])
           && w.store.tickets == st.tickets[i := w.ticket]
           && w.ticket == ApplyUpdate(st.tickets[i], StatusField(body.status), PriorityField(body.priority), now);
    ReplaceKeepsValid(st, i, w.ticket);
  }

  lemma AddCommentKeepsValid(st: Store, auth: Option<Identity>, id: Id, content: Option<string>, now: nat)
    requires Valid(st)
    requires AddComment(st, auth, id, content, now).Ok?
    ensures Valid(AddComment(st, auth, id, content, now).value.store)
  {
    var w := AddComment(st, auth, id, content, now).value;
    var i :| 0 <= i < |st.tickets| && st.tickets[i].id == id && CanAccess(auth.value, st.tickets[i])
           && w.store.tickets == st.tickets[i := w.ticket]
           && w.ticket == AppendComment(st.tickets[i], content, auth.value.userId, now);
    ReplaceKeepsValid(st, i, w.ticket);
  }

  /** In a valid store, the ticket at `i` is the one getTicketById
      returns for its id, to anyone who can access it. */
  lemma GetFindsTicket(st: Store, actor: Identity, i: nat)
    requires Valid(st) && i < |st.tickets| && CanAccess(actor, st.tickets[i])
    ensures GetTicket(st, Some(actor), st.tickets[i].id) == Ok(st.tickets[i])
  {
    var k := FirstIndex(st.tickets, ItemQuery(actor, st.tickets[i].id));
    assert ItemQuery(actor, st.tickets[i].id)(st.tickets[i]);
    assert k <= i;
  }

  /** An update is what the next read returns: after a successful update
      the caller gets the updated ticket back from getTicketById. */
  lemma UpdateThenGet(st: Store, actor: Identity, id: Id, body: UpdateTicketBody, now: nat)
    requires Valid(st)
    requires UpdateTicket(st, Some(actor), id, body, now).Ok?
    ensures var w := UpdateTicket(st, Some(actor), id, body, now).value;
      GetTicket(w.store, Some(actor), id) == Ok(w.ticket)
  {
    var w := UpdateTicket(st, Some(actor), id, body, now).value;
    var i :| 0 <= i < |st.tickets| && st.tickets[i].id == id && CanAccess(actor, st.tickets[i])
           && w.store.tickets == st.tickets[i := w.ticket]
           && w.ticket == ApplyUpdate(st.tickets[i], StatusField(body.status), PriorityField(body.priority), now);
    UpdateTicketKeepsValid(st, Some(actor), id, body, now);
    assert w.store.tickets[i] == w.ticket;
    GetFindsTicket(w.store, actor, i);
  }

  /** A comment is what the next read returns: the ticket getTicketById
      gives back ends with it. */
  lemma CommentThenGet(st: Store, actor: Identity, id: Id, content: Option<string>, now: nat)
    requires Valid(st)
    requires AddComment(st, Some(actor), id, content, now).Ok?
    ensures var w := AddComment(st, Some(actor), id, content, now).value;
      && GetTicket(w.store, Some(actor), id) == Ok(w.ticket)
      && w.ticket.comments[|w.ticket.comments| - 1] == Comment(content, actor.userId, now)
  {
    var w := AddComment(st, Some(actor), id, content, now).value;
    var i :| 0 <= i < |st.tickets| && st.tickets[i].id == id && CanAccess(actor, st.tickets[i])
           && w.store.tickets == st.tickets[i := w.ticket]
           && w.ticket == AppendComment(st.tickets[i], content, actor.userId, now);
    AddCommentKeepsValid(st, Some(actor), id, content, now);
    assert w.store.tickets[i] == w.ticket;
    GetFindsTicket(w.store, actor, i);
  }

  /** Where a successful addComment wrote: the one ticket with `id`,
      which the caller can access. */
  lemma AddCommentIndex(st: Store, actor: Identity, id: Id, content: Option<string>, now: nat) returns (i: nat)
    requires Valid(st)
    requires AddComment(st, Some(actor), id, content, now).Ok?
    ensures i < |st.tickets| && st.tickets[i].id == id && CanAccess(actor, st.tickets[i])
    ensures var w := AddComment(st, Some(actor), id, content, now).value;
      && w.store.tickets == st.tickets[i := w.ticket]
      && w.ticket == AppendComment(st.tickets[i], content, actor.userId, now)
    ensures forall j :: 0 <= j < |st.tickets| && st.tickets[j].id == id ==> j == i
  {
    var w := AddComment(st, Some(actor), id, content, now).value;
    i :| 0 <= i < |st.tickets| && st.tickets[i].id == id && CanAccess(actor, st.tickets[i])
           && w.store.tickets == st.tickets[i := w.ticket]
           && w.ticket == AppendComment(st.tickets[i], content, actor.userId, now);
  }

  /** Commenting on a ticket the caller can access succeeds and extends
      that ticket's comments by exactly the new one. */
  lemma CommentExtends(st: Store, actor: Identity, i: nat, content: Option<string>, now: nat)
    requires Valid(st) && i < |st.tickets| && CanAccess(actor, st.tickets[i])
    ensures var r := AddComment(st, Some(actor), st.tickets[i].id, content, now);
      && r.Ok?
      && r.value.store.tickets[i] == r.value.ticket
      && r.value.ticket.id == st.tickets[i].id && CanAccess(actor, r.value.ticket)
      && r.value.ticket.comments == st.tickets[i].comments + [Comment(content, actor.userId, now)]
  {
    var id := st.tickets[i].id;
    assert AddComment(st, Some(actor), id, content, now).Ok?;
    var j := AddCommentIndex(st, actor, id, content, now);
    assert j == i;
  }

  /** Two comments on the same ticket are kept in call order after the
      earlier ones. */
  lemma CommentsInCallOrder(st: Store, actor: Identity, i: nat, c1: Option<string>, c2: Option<string>,
                            t1: nat, t2: nat)
    requires Valid(st) && i < |st.tickets| && CanAccess(actor, st.tickets[i])
    ensures var id := st.tickets[i].id;
      var w1 := AddComment(st, Some(actor), id, c1, t1).value;
      var w2 := AddComment(w1.store, Some(actor), id, c2, t2);
      && w2.Ok?
      && w2.value.ticket.comments
         == st.tickets[i].comments + [Comment(c1, actor.userId, t1), Comment(c2, actor.userId, t2)]
  {
    var id := st.tickets[i].id;
    CommentExtends(st, actor, i, c1, t1);
    AddCommentKeepsValid(st, Some(actor), id, c1, t1);
    var w1 := AddComment(st, Some(actor), id, c1, t1).value;
    CommentExtends(w1.store, actor, i, c2, t2);
  }
}

=== FILE: ticket_routes.dfy ===
/** The declarative request validators of the ticket routes and the
    sanitizing they do on the body before the handler runs. */
module TicketRoutes {
  import opened Basics
  import opened Text
  import opened TicketModel

  /** A ticket submission. A missing string field is the empty string
      (the validators reject both alike); `category` is None when the field
      is not a well-formed id; `priority` is None when absent. */
  datatype CreateTicketBody = CreateTicketBody(
    title: string,
    description: string,
    category: Option<Id>,
    customerEmail: string,
    customerName: string,
    priority: Option<string>)

  /** A status/priority change; each field is None when absent. */
  datatype UpdateTicketBody = UpdateTicketBody(status: Option<string>, priority: Option<string>)

  /** Trimmed, isLength() between 1 and 200. */
  predicate TitleOk(title: string) {
    1 <= ValidatorLength(Trim(title)) <= MaxTitleLength
  }

  /** Trimmed, isLength() at least 1. */
  predicate NotBlank(s: string) {
    1 <= ValidatorLength(Trim(s))
  }

  predicate OptionalStatusOk(status: Option<string>) {
    status.None? || ParseStatus(status.value).Some?
  }

  predicate OptionalPriorityOk(priority: Option<string>) {
    priority.None? || ParsePriority(priority.value).Some?
  }

  /** The fields createTicketValidation rejects, in declaration order. */
  function CreateTicketErrors(b: CreateTicketBody, v: Validators): (errs: seq<string>)
    ensures errs == [] <==>
      && TitleOk(b.title) && NotBlank(b.description) && b.category.Some?
      && v.isEmail(b.customerEmail) && NotBlank(b.customerName)
      && OptionalPriorityOk(b.priority)
  {
    Rule(TitleOk(b.title), "title")
    + Rule(NotBlank(b.description), "description")
    + Rule(b.category.Some?, "category")
    + Rule(v.isEmail(b.customerEmail), "customerEmail")
    + Rule(NotBlank(b.customerName), "customerName")
    + Rule(OptionalPriorityOk(b.priority), "priority")
  }

  /** The body as the handler receives it: trim() and normalizeEmail()
      rewrite their fields in place. */
  function SanitizeCreateTicket(b: CreateTicketBody, v: Validators): (r: CreateTicketBody)
    ensures IsTrimmed(r.title) && IsTrimmed(r.description) && IsTrimmed(r.customerName)
    ensures r.customerEmail == v.normalizeEmail(b.customerEmail)
    ensures r.category == b.category && r.priority == b.priority
  {
    b.(title := Trim(b.title),
       description := Trim(b.description),
       customerEmail := v.normalizeEmail(b.customerEmail),
       customerName := Trim(b.customerName))
  }

  /** The fields updateTicketValidation rejects, in declaration order. */
  function UpdateTicketErrors(b: UpdateTicketBody): (errs: seq<string>)
    ensures errs == [] <==> OptionalStatusOk(b.status) && OptionalPriorityOk(b.priority)
  {
    Rule(OptionalStatusOk(b.status), "status") + Rule(OptionalPriorityOk(b.priority), "priority")
  }

  /** A body that passed createTicketValidation leaves title,
      description and name trimmed and non-empty, and the title within the
      validator's count of 200. */
  lemma ValidatedTicketFitsSchema(b: CreateTicketBody, v: Validators)
    requires CreateTicketErrors(b, v) == []
    ensures var s := SanitizeCreateTicket(b, v);
      && Trim(s.title) != [] && ValidatorLength(s.title) <= MaxTitleLength && Trim(s.title) == s.title
      && Trim(s.description) != [] && Trim(s.description) == s.description
      && Trim(s.customerName) != [] && Trim(s.customerName) == s.customerName
  {
    TrimIdempotent(b.title);
    TrimIdempotent(b.description);
    TrimIdempotent(b.customerName);
  }
}

=== FILE: users.dfy ===
/** The parts of a user account the ticket core reads. The User schema
    itself is not part of this model; credentials, names and login times
    are left to the authenticator. */
module Users {
  import opened Basics

  datatype Role = Admin | SuperAdmin

  /** A user account: an admin is bound to the category whose tickets it
      handles; `isActive` switches an account off without deleting it. */
  datatype User = User(id: Id, role: Role, category: Option<Id>, isActive: bool)

  /** The authenticated caller, as the auth middleware hands it to a
      controller (`req.user`). */
  datatype Identity = Identity(userId: Id, role: Role, category: Option<Id>)
}
